=== FILE: README.md ===
# morpion-rmi in Dafny

A model of the game logic of morpion-rmi, a networked tic-tac-toe
("morpion") server with Swing clients. The model covers four pieces:

- the engine `model/GameState.java`: a 3x3 board, the symbol to move, the
  game-over flag, the winner (a player name, `"DRAW"` or null), two player
  slots, per-player win/loss/draw counters and a match history;
- the room wrapper `server/GameRoom.java`: one engine, a fixed host, an
  optional guest, a room status, and typed replies to every request;
- the room registry `server/GameRoomManager.java`: a map from room id to
  a small room record (its nested `GameRoom` class);
- the client's `getBoardMatrix` in `client/MorpionClientGUI.java`, which
  reads the engine's board text back into a 3x3 matrix of strings.

Every operation is a pure function from the old state and the request to
the new state and the reply. The source's nondeterminism enters as
parameters:
- `start: Symbol` is the random first mover of `resetGame`;
- `now: Long` is `System.currentTimeMillis()`;
- `id` is the room id that `generateRoomId` draws from a random UUID.

Modules:

| file | module | models |
|---|---|---|
| common.dfy | `Common` | `Option` for Java null, the two symbols |
| board.dfy | `Board` | grid, the eight lines in scan order, mark counts, the board text |
| game_state.dfy | `GameState` | the engine, its invariant, the counter-update finding |
| game_room.dfy | `GameRoom` | `server.GameRoom` and its room invariant |
| room_manager.dfy | `GameRoomManager` | the registry, its nested room, Java `long` arithmetic |
| board_parser.dfy | `BoardParser` | `String.split`, `String.trim`, `getBoardMatrix`, the render/parse round trip |

Some behaviour of the code goes beyond a bare description of a game
server, and the model follows the code (the one exception is the counter
update of a finished game, see Findings):
- the engine's `makeMove` answers only true or false, with no reason for a
  rejection;
- `getAvailableRooms` does not look at activity times;
- `server.GameRoom` never registers its guest with its engine. The engine
  therefore never has two players, and no move in a room is ever VALID
  (`GameRoom.NoMoveIsEverValid`).

## Model

| member | source | states |
|---|---|---|
| Board.Place | morpion-rmi/src/model/GameState.java:89 | the chosen cell holds the new mark and every other cell is unchanged |
| Board.Full | morpion-rmi/src/model/GameState.java:161-172 | the draw scan: the board is full exactly when no cell holds " " |
| Board.SameMark | morpion-rmi/src/model/GameState.java:189-191 | `checkLine`: three cells form a line exactly when the first is not " " and the other two equal it |
| Board.FirstCompleteFrom | morpion-rmi/src/model/GameState.java:130-159 | returns the first line at or after `from` in scan order (rows, columns, main diagonal, anti-diagonal) whose three cells hold equal marks, or none when no later line is complete |
| Board.FirstCompleteFound | morpion-rmi/src/model/GameState.java:189-191 | the scan finds a line exactly when some line is complete, and the line it finds is the first complete one |
| Board.PlaceCount | morpion-rmi/src/model/GameState.java:89 | marking an empty cell with `s` raises the count of `s` by one and leaves the other symbol's count unchanged |
| Board.RowLayout | morpion-rmi/src/model/GameState.java:221-222 | a row line is 12 characters: a space, the first cell, " \| ", the second cell, " \| ", the third cell, a space and a line break |
| Board.RenderLayout | morpion-rmi/src/model/GameState.java:218-227 | the board text is fixed character by character. It is 60 characters long, with cell (i, j) at offset 24i+4j+1. Each row line at 0, 24 and 48 has spaces and bars around its cells and ends in a line break, and the separator lines sit at 12-23 and 36-47 |
| Board.RenderRows | morpion-rmi/src/model/GameState.java:220-225 | the text is the first row line, a separator, the second row line, a separator and the third row line, at offsets 0, 12, 24, 36 and 48 |
| GameState.NewGame | morpion-rmi/src/model/GameState.java:25-27 | a new engine has no players, counters or history, and a fresh board |
| GameState.ResetGame | morpion-rmi/src/model/GameState.java:29-40 | nine empty cells, the given first mover, not over, no winner; players, counters and history are kept |
| GameState.ResetEstablishesInv | morpion-rmi/src/model/GameState.java:29-40 | a reset board satisfies the alternation invariant and "over iff a winner is set" |
| GameState.PutIfAbsent | morpion-rmi/src/model/GameState.java:58-63 | the key is added at 0 unless present, and existing counters keep their values |
| GameState.RegisterPlayer | morpion-rmi/src/model/GameState.java:50-67 | WAIT iff the X slot is free, and the caller takes it. The second caller takes the O slot, is told the symbol to move, and both players' counters are seeded at 0 if absent. GAME_FULL iff both slots are taken, and then nothing changes |
| GameState.RegistrationSequence | morpion-rmi/src/model/GameState.java:50-67 | on a new engine three callers get WAIT, then the first mover, then GAME_FULL; the first two hold X and O |
| GameState.RegisterKeepsInv | morpion-rmi/src/model/GameState.java:50-67 | registration keeps the engine invariant |
| GameState.DisconnectPlayer | morpion-rmi/src/model/GameState.java:69-79 | clears the caller's slot, checking X first. If a slot is then empty the board is reset, otherwise nothing changes. Counters and history are kept |
| GameState.DisconnectKeepsInv | morpion-rmi/src/model/GameState.java:69-79 | disconnection keeps the invariant; after a reset, alternation restarts from the new first mover |
| GameState.IsGameReady | morpion-rmi/src/model/GameState.java:206-208 | the engine is ready exactly when both the X and the O slot are filled |
| GameState.IsValidPlayer | morpion-rmi/src/model/GameState.java:126-128 | a name is a participant exactly when it owns the X slot or the O slot |
| GameState.IsPlayerTurn | morpion-rmi/src/model/GameState.java:201-204 | a name has the turn exactly when it owns the slot of the symbol to move: X with the X slot, O with the O slot |
| GameState.GetPlayerSymbol | morpion-rmi/src/model/GameState.java:229-235 | X for the X slot's owner, O for the O slot's owner when they are not also X, and null exactly for non-participants |
| GameState.TurnMatchesSymbol | morpion-rmi/src/model/GameState.java:201-204 | with distinct players, it is a player's turn exactly when their symbol is the one to move |
| GameState.GetOpponentName | morpion-rmi/src/model/GameState.java:255-261 | each participant gets the other slot's owner, and a stranger gets null |
| GameState.OpponentOfOpponent | morpion-rmi/src/model/GameState.java:255-261 | with two distinct players, a participant's opponent is the other participant, and the opponent's opponent is the caller |
| GameState.GetCurrentBoard | morpion-rmi/src/model/GameState.java:218-227 | the text is 60 characters. It shows cell (i, j) at offset 24i+4j+1 as " ", "X" or "O", frames each row line as " a \| b \| c \n", and has "-----------\n" between the rows |
| GameState.GetPlayerStats | morpion-rmi/src/model/GameState.java:237-243 | reports each stored counter, and 0 for each counter the player does not have |
| GameState.StatsSurviveSessions | morpion-rmi/src/model/GameState.java:50-79 | registering (which only seeds zeros), disconnecting and resetting leave every player's reported statistics unchanged |
| GameState.UpdatePlayerStats | morpion-rmi/src/model/GameState.java:103-114 | on a draw each player gains one draw. Otherwise the winner gains one win and the other player one loss. Absent counters read as 0, and nothing else changes |
| GameState.MissingCounter | morpion-rmi/src/model/GameState.java:103-114 | a counter the end-of-game update increments is absent: either player's draw counter on a draw, otherwise the winner's win counter or the other player's loss counter |
| GameState.UpdatePlayerStatsAsWritten | morpion-rmi/src/model/GameState.java:103-114 | the code as written throws exactly when a counter it increments is absent. The engine is then left with the increments made before the throw: none if the first name lacks its counter, the first one otherwise. When it does not throw it agrees with `UpdatePlayerStats` |
| GameState.MatchLine | morpion-rmi/src/model/GameState.java:116-124 | "Draw between x and o" on a draw, otherwise "w won against l" with l the player who is not the winner |
| GameState.MatchLineNamesBoth | morpion-rmi/src/model/GameState.java:116-124 | when the winner is "DRAW" or one of the two players, the history line contains both players' names |
| GameState.AddToMatchHistory | morpion-rmi/src/model/GameState.java:116-124 | appends exactly one line and keeps the earlier history and everything else. When the winner is "DRAW" or one of the players, the new line names both players, so it reaches both players' `getMatchHistory` |
| GameState.FilterContaining | morpion-rmi/src/model/GameState.java:245-253 | keeps exactly the lines containing the name, each as often as it occurs |
| GameState.GetMatchHistory | morpion-rmi/src/model/GameState.java:245-253 | a player's history is the lines mentioning them, with their multiplicities |
| GameState.NameBySymbol | morpion-rmi/src/model/GameState.java:180-187 | the X slot's owner for X and the O slot's owner for O, null when the slot is empty |
| GameState.CheckGameOver | morpion-rmi/src/model/GameState.java:130-178 | the game is over iff it already was, a line is complete or the board is full. The owner of the first complete line in scan order is the winner. A full board with no line gives "DRAW". Otherwise nothing changes |
| GameState.MakeMove | morpion-rmi/src/model/GameState.java:81-101 | a move is accepted iff the game is running, both slots are filled, it is the caller's turn, and the cell is in range and empty. A rejected move changes nothing. An accepted move writes the mover's symbol into exactly that cell and keeps both players. The game is then over iff a line is complete or the board is full: the owner of the first complete line in scan order wins, and a full board with no line gives "DRAW". The turn flips unless the game ended, and a finished game appends one history line. The counters use the corrected update, which reads a missing counter as 0 (see Findings) |
| GameState.MakeMoveAsWritten | morpion-rmi/src/model/GameState.java:81-101 | with the counter update as written, a move either agrees with `MakeMove` or throws. It throws exactly when the move is accepted, ends the game, and a counter the update increments is missing. The engine is then left with the move on the board, the game over with its winner set, the turn not passed and no history line, and its counters lie between the old ones and those `MakeMove` produces |
| GameState.MakeMoveKeepsInv | morpion-rmi/src/model/GameState.java:89-97 | moves keep the invariant. The first mover has as many marks as the other symbol or one more, the symbol to move follows from that, and the game is over iff a winner is set |
| GameState.FinishedGameInBothHistories | morpion-rmi/src/model/GameState.java:94-96 | a game-ending move adds exactly one history line, and it appears in both players' filtered histories |
| GameState.FinishedGameCountedOnce | morpion-rmi/src/model/GameState.java:103-114 | a game-ending move changes the counters once, for every name. A draw gives each player one draw. Otherwise the winner gains one win and the other player one loss. Every other counter of every name is unchanged |
| GameState.QuietMove | morpion-rmi/src/model/GameState.java:89-93 | an accepted move that completes no line and leaves an empty cell only writes the cell and passes the turn |
| GameState.RejoinedSessionFacts | morpion-rmi/src/model/GameState.java:50-79 | after a and b register, a leaves and c registers, c holds X with no counters and the board is fresh |
| GameState.TopRowWinWithoutCounters | morpion-rmi/src/model/GameState.java:103-114 | when X's owner has no counters and completes the top row, the code as written throws. It leaves the game over with X's owner as winner, with no history line and unchanged wins. The corrected update records one win |
| GameState.RejoinedPlayerWinThrows | morpion-rmi/src/model/GameState.java:103-114 | a reachable run (register a, b; a leaves; c joins; five moves) where the code as written throws. It leaves the game over with c as winner and no new history line. The corrected model records c's win |
| GameRoom.NewRoom | morpion-rmi/src/server/GameRoom.java:17-24 | a new room is WAITING with no guest; the host holds the engine's X slot on a fresh board |
| GameRoom.NewRoomInv | morpion-rmi/src/server/GameRoom.java:17-24 | a new room satisfies the room invariant |
| GameRoom.RegisterPlayer | morpion-rmi/src/server/GameRoom.java:32-54 | ERROR iff the name is empty or the host's. Otherwise GAME_FULL iff a guest exists. Otherwise PLAYER_O: the guest is set, the status becomes IN_PROGRESS and nothing else changes. The engine is never touched |
| GameRoom.JoinRoom | morpion-rmi/src/server/GameRoom.java:175-177 | joining behaves as registering, whatever room id is given |
| GameRoom.IsFull | morpion-rmi/src/server/GameRoom.java:56-58 | the room is full exactly when a guest is set |
| GameRoom.IsEmpty | morpion-rmi/src/server/GameRoom.java:197-199 | `isEmpty` is always the negation of `isFull` |
| GameRoom.MakeMove | morpion-rmi/src/server/GameRoom.java:61-88 | the checks apply in order: a wrong id or a status other than IN_PROGRESS gives GAME_NOT_READY, then GAME_OVER, then NOT_YOUR_TURN. An engine rejection gives INVALID with no change. VALID iff the engine accepts, and the status then becomes COMPLETED exactly when the game is over |
| GameRoom.GetCurrentBoard | morpion-rmi/src/server/GameRoom.java:91-97 | "" for a foreign id, the engine's board text otherwise |
| GameRoom.IsGameOver | morpion-rmi/src/server/GameRoom.java:99-106 | true iff the id matches and the engine's game is over |
| GameRoom.GetWinner | morpion-rmi/src/server/GameRoom.java:108-114 | null for a foreign id, the engine's winner otherwise |
| GameRoom.IsPlayerTurn | morpion-rmi/src/server/GameRoom.java:116-122 | true iff the id matches and the engine says it is the caller's turn |
| GameRoom.IsGameReady | morpion-rmi/src/server/GameRoom.java:124-130 | true iff the id matches and a guest is present, whatever the engine holds |
| GameRoom.GetRoomStatus | morpion-rmi/src/server/GameRoom.java:185-190 | ERROR for a foreign id, the room's status otherwise |
| GameRoom.GetPlayerSymbol | morpion-rmi/src/server/GameRoom.java:156-167 | X iff the id matches and the caller is the host; O iff the id matches and the caller is the guest; null otherwise |
| GameRoom.ResetGame | morpion-rmi/src/server/GameRoom.java:132-138 | with a matching id: a fresh board and IN_PROGRESS, with or without a guest, and nothing else changes. A foreign id changes nothing |
| GameRoom.DisconnectPlayer | morpion-rmi/src/server/GameRoom.java:140-154 | with a matching id the room always becomes WAITING and keeps its host. The host leaving keeps the guest in the room and passes two disconnects to the engine: first the host, then the guest if there is one. The guest leaving clears the guest and passes the disconnect on to the engine. An unknown name changes only the status |
| GameRoom.CommandsKeepInv | morpion-rmi/src/server/GameRoom.java:32-154 | every command keeps the room invariant: the engine's O slot stays empty, X holds the host or nobody, the guest is not the host, and the board stays empty with no result |
| GameRoom.NoMoveIsEverValid | morpion-rmi/src/server/GameRoom.java:61-88 | in a reachable room no move is VALID and none changes the room. A move that passes the turn check is INVALID, and the room is never COMPLETED |
| GameRoom.HostLeavingEmptiesEngine | morpion-rmi/src/server/GameRoom.java:140-154 | in a reachable room the host leaving empties both engine slots and resets the board, and the room keeps host and guest |
| GameRoom.GuestLeavingResetsEngine | morpion-rmi/src/server/GameRoom.java:140-154 | in a reachable room the guest leaving still reaches the engine, which has no O player and so resets the board; the host keeps the X slot, the room forgets the guest and waits |
| GameRoom.QueriesInReachableRoom | morpion-rmi/src/server/GameRoom.java:91-167 | in a reachable room the queries show a game that is not over, has no winner and has an empty board. The guest never has the turn, and while the host holds X the room and the engine agree on the host's symbol |
| GameRoomManager.Wrap | morpion-rmi/src/server/GameRoomManager.java:132 | Java `long` arithmetic: the result is congruent to the exact value modulo 2^64 and equals it when in range |
| GameRoomManager.NewManagedRoom | morpion-rmi/src/server/GameRoomManager.java:20-22 | a new record has the host as X, no O, is active, and was last active now |
| GameRoomManager.AddPlayer | morpion-rmi/src/server/GameRoomManager.java:24-31 | succeeds iff the O slot is free; then the name fills it and the time is updated, otherwise nothing changes |
| GameRoomManager.IsAvailable | morpion-rmi/src/server/GameRoomManager.java:37-39 | a room is available exactly when it is active and its O slot is free |
| GameRoomManager.AddPlayerAtMostOnce | morpion-rmi/src/server/GameRoomManager.java:24-35 | after a successful addPlayer the room is full and every later addPlayer fails without change |
| GameRoomManager.CloseRoom | morpion-rmi/src/server/GameRoomManager.java:62-64 | the room becomes inactive, is no longer available, and nothing else changes |
| GameRoomManager.CreateRoom | morpion-rmi/src/server/GameRoomManager.java:75-80 | the key set gains the id and the id is returned. The id holds a new room owned by the caller, and the other entries are unchanged. A fresh id grows the map by one |
| GameRoomManager.JoinRoom | morpion-rmi/src/server/GameRoomManager.java:82-92 | succeeds iff the id is present and its room is active and not full. Then only that room's O slot and time change; otherwise nothing changes |
| GameRoomManager.GetAvailableRooms | morpion-rmi/src/server/GameRoomManager.java:94-105 | exactly the ids whose room is active and not full |
| GameRoomManager.GetAllRooms | morpion-rmi/src/server/GameRoomManager.java:107-109 | exactly the current keys |
| GameRoomManager.RoomListings | morpion-rmi/src/server/GameRoomManager.java:94-109 | every available room is among all rooms; creating adds exactly its id to the list and removing takes exactly its id out |
| GameRoomManager.RemoveRoom | morpion-rmi/src/server/GameRoomManager.java:122-129 | the key is deleted, the other entries are unchanged, and the removed room is closed; an absent id changes nothing |
| GameRoomManager.IsInactive | morpion-rmi/src/server/GameRoomManager.java:70-72 | the time since the last activity, computed in `long` arithmetic, exceeds the timeout |
| GameRoomManager.TimeoutMillis | morpion-rmi/src/server/GameRoomManager.java:132 | `minutes * 60 * 1000` in `long` arithmetic equals `minutes * 60000` wrapped once into a `long`, and is exactly `minutes * 60000` when that fits |
| GameRoomManager.CleanupInactiveRooms | morpion-rmi/src/server/GameRoomManager.java:131-140 | keeps exactly the rooms whose elapsed time, computed in `long` arithmetic, does not exceed minutes·60·1000; kept rooms are unchanged |
| GameRoomManager.CleanupMatchesElapsedTime | morpion-rmi/src/server/GameRoomManager.java:70-72 | without overflow a room is swept exactly when now − lastActivity > minutes·60000 |
| GameRoomManager.GetPlayerSymbol | morpion-rmi/src/server/GameRoomManager.java:142-151 | X iff the room exists and the name is its X player; O iff it is its O player and not X; null otherwise |
| GameRoomManager.OperationsKeepAllActive | morpion-rmi/src/server/GameRoomManager.java:75-140 | create, join, remove and cleanup keep every stored room active |
| GameRoomManager.AvailableMeansJoinable | morpion-rmi/src/server/GameRoomManager.java:82-105 | in such a registry a room is listed as available iff its O slot is free, iff joining it succeeds |
| GameRoomManager.CreateThenJoin | morpion-rmi/src/server/GameRoomManager.java:75-105 | a new room is available. One join succeeds and makes it unavailable, a second join fails, and the host is still X |
| BoardParser.Pieces | morpion-rmi/src/client/MorpionClientGUI.java:145 | split pieces: at least one, none containing the separator |
| BoardParser.JoinPieces | morpion-rmi/src/client/MorpionClientGUI.java:145 | joining the pieces with the separator gives back the text |
| BoardParser.DropTrailingEmpty | morpion-rmi/src/client/MorpionClientGUI.java:145 | Java's split drops only trailing empty pieces: the result is a prefix ending in a non-empty piece, and everything dropped is empty |
| BoardParser.JavaSplit | morpion-rmi/src/client/MorpionClientGUI.java:145 | `String.split` on one character. Without the separator the result is the whole text. Otherwise it is the pieces between separators with the trailing empty ones dropped: a prefix of the pieces ending in a non-empty one. No piece contains the separator |
| BoardParser.Trim | morpion-rmi/src/client/MorpionClientGUI.java:150 | `trim` keeps one contiguous slice of the text. That slice is empty or starts and ends with a character above ' ', and only characters up to ' ' lie before and after it |
| BoardParser.LeadingBlanks | morpion-rmi/src/client/MorpionClientGUI.java:150 | the leading run of characters up to ' ' that `trim` removes, ending at the first other character |
| BoardParser.TrailingBlanks | morpion-rmi/src/client/MorpionClientGUI.java:150 | the trailing run of characters up to ' ' that `trim` removes |
| BoardParser.GetBoardMatrix | morpion-rmi/src/client/MorpionClientGUI.java:144-154 | a result exists iff the text has at least five lines and lines 0, 2 and 4 each split into at least three pieces on '\|'. The result is 3x3, and cell (i, j) is the trimmed j-th piece of line 2i |
| BoardParser.SeparatorLinesIgnored | morpion-rmi/src/client/MorpionClientGUI.java:148 | texts agreeing on lines 0, 2 and 4 parse alike, whatever their separator lines hold |
| BoardParser.TrimPadded | morpion-rmi/src/client/MorpionClientGUI.java:150 | trimming a padded cell gives "" for an empty cell and "X" or "O" otherwise |
| BoardParser.SplitRow | morpion-rmi/src/client/MorpionClientGUI.java:148 | a row line splits on '\|' into exactly its three padded cells |
| BoardParser.SplitLines | morpion-rmi/src/client/MorpionClientGUI.java:145 | the board text splits into exactly five lines: rows and separators alternating |
| BoardParser.RowRoundTrip | morpion-rmi/src/client/MorpionClientGUI.java:148-150 | a row line parses back to the names of its three cells |
| BoardParser.ParseRendered | morpion-rmi/src/client/MorpionClientGUI.java:144-154 | parsing the engine's board text returns every cell's symbol, with an empty cell as "" |

## Left out

- Activity timestamps in the engine and in `server.GameRoom`, `updateActivity`, `checkTimeout` and `server.GameRoom.isInactive`: these only read the clock, and nothing in the modelled logic depends on them. The registry's `isInactive` is modelled, with the clock as a parameter.
- Null player names: names are strings. The GUI client refuses a missing or empty name before calling the server (client/MorpionClientGUI.java:51), the console client reads the name with `Scanner.nextLine`, which never yields null (client/MorpionClient.java:21), and `server.GameRoom.registerPlayer` answers ERROR to null as to "".
- GameRoomManager.AddPlayerAtMostOnce: holds for non-null names only. With a null name `addPlayer` and `joinRoom` return true and leave `playerO` null, so a later add succeeds again; null names are not modelled.
- `Random` in `resetGame` and the UUID in `generateRoomId` are parameters (`start`, `id`).
- Locking (`synchronized`, `ConcurrentHashMap`): every operation is one atomic sequential step.
- `println` logging and the unused `formatRoomInfo`.
- Plain accessors (`getPlayerX`, `getPlayerO`, `isGameOver`, `getWinner`, `getStatus`, `getHostPlayer`, `getGuestPlayer`, `getHostName`, `getRoom`, `isActive`) are record fields of the model. `isPlayerConnected` is the same test as `IsValidPlayer`.
- The engine the registry's nested room holds, and `getGameState`: no registry operation uses it.
- `server.GameRoom.createRoom` and `listAvailableRooms` only throw `UnsupportedOperationException`.
- The id-free overloads at the end of `server.GameRoom` only call the id-guarded forms with the room's own id.
- RMI export, the remote interfaces, the console client and the rest of the Swing client: I/O only.
- GameState.GetPlayerStats: counters are unbounded `nat`s, so a Java `Integer` overflow after 2^31 games is not modelled.
- GameState.FilterContaining: states membership and multiplicity, not that the kept lines stay in their original order.
- GameState.GetMatchHistory: like `FilterContaining`, it does not state the order of the kept lines.
- GameRoomManager.GetAvailableRooms: returns a set, because `ConcurrentHashMap` iteration order is unspecified. `getAllRooms` likewise returns a set.
- GameRoomManager.CreateRoom: has no freshness requirement on the id. A colliding id replaces the old room, as Java's `put` does.

## Findings

| source | as written | input that shows it | evidently intended | confidence | as-written member | corrected member |
|---|---|---|---|---|---|---|
| morpion-rmi/src/model/GameState.java:103-114 | `updatePlayerStats` increments with `get(name) + 1`. Counters are seeded only when the second player registers (lines 58-63). A player who takes a freed X slot (lines 51-54) after the previous X left (lines 69-79) therefore has none, and unboxing null throws a NullPointerException in the middle of `makeMove`. The engine is left with the game over and its winner set, but with no history line and with only the increments made before the throw | register a, register b, disconnect a, register c, with X drawn to move first (line 36); then c plays (0,0), b (1,0), c (0,1), b (1,1), c (0,2) | count a missing player as 0 (`getOrDefault`, as `getPlayerStats` reads them), so c gains one win and b one loss | not executed | GameState.RejoinedPlayerWinThrows | GameState.FinishedGameCountedOnce |

=== FILE: board.dfy ===
/** The 3x3 grid of the engine, its eight winning lines in the order the
    engine scans them, and the fixed text layout the server sends to
    clients. */
module Board {
  import opened Common

  /** A cell holds " " (Empty) or a player's mark. */
  datatype Cell = Empty | Mark(sym: Symbol)

  /** A row or column index the engine accepts. */
  type Coord = i: int | 0 <= i < 3

  predicate IsGrid(b: seq<seq<Cell>>) {
    |b| == 3 && forall i :: 0 <= i < 3 ==> |b[i]| == 3
  }

  /** The engine's `String[3][3]` board. */
  type Grid = b: seq<seq<Cell>> | IsGrid(b)
    witness [[Empty, Empty, Empty], [Empty, Empty, Empty], [Empty, Empty, Empty]]

  const EmptyGrid: Grid := [[Empty, Empty, Empty], [Empty, Empty, Empty], [Empty, Empty, Empty]]

  /** Writes `c` into one cell and nothing else. */
  function Place(b: Grid, row: Coord, col: Coord, c: Cell): (r: Grid)
    ensures r[row][col] == c
    ensures forall i, j :: 0 <= i < 3 && 0 <= j < 3 && (i != row || j != col) ==> r[i][j] == b[i][j]
  {
    b[row := b[row][col := c]]
  }

  /** No cell is empty. */
  predicate Full(b: Grid) {
    forall i, j :: 0 <= i < 3 && 0 <= j < 3 ==> b[i][j] != Empty
  }

  datatype Pos = Pos(row: Coord, col: Coord)
  datatype Line = Line(a: Pos, b: Pos, c: Pos)

  function At(b: Grid, p: Pos): Cell {
    b[p.row][p.col]
  }

  /** The eight lines in the engine's scan order: rows top to bottom, then
      columns left to right, then the main diagonal, then the anti-diagonal. */
  const ScanOrder: seq<Line> := [
    Line(Pos(0, 0), Pos(0, 1), Pos(0, 2)),
    Line(Pos(1, 0), Pos(1, 1), Pos(1, 2)),
    Line(Pos(2, 0), Pos(2, 1), Pos(2, 2)),
    Line(Pos(0, 0), Pos(1, 0), Pos(2, 0)),
    Line(Pos(0, 1), Pos(1, 1), Pos(2, 1)),
    Line(Pos(0, 2), Pos(1, 2), Pos(2, 2)),
    Line(Pos(0, 0), Pos(1, 1), Pos(2, 2)),
    Line(Pos(0, 2), Pos(1, 1), Pos(2, 0))
  ]

  /** Three equal marks, the first of them not empty (the engine's checkLine). */
  predicate SameMark(a: Cell, b: Cell, c: Cell) {
    a != Empty && a == b && a == c
  }

  predicate Completes(b: Grid, l: Line) {
    SameMark(At(b, l.a), At(b, l.b), At(b, l.c))
  }

  /** Some line of the board holds three equal marks. */
  predicate HasCompleteLine(b: Grid) {
    exists k :: 0 <= k < |ScanOrder| && Completes(b, ScanOrder[k])
  }

  /** Line `k` is the first complete line in scan order. */
  ghost predicate FirstComplete(b: Grid, k: int) {
    && 0 <= k < |ScanOrder|
    && Completes(b, ScanOrder[k])
    && forall j :: 0 <= j < k ==> !Completes(b, ScanOrder[j])
  }

  /** Index of the first complete line at or after `from`, scanning in order. */
  function FirstCompleteFrom(b: Grid, from: nat): (k: Option<nat>)
    requires from <= |ScanOrder|
    ensures k.Some? ==> from <= k.value < |ScanOrder| && Completes(b, ScanOrder[k.value])
    ensures k.Some? ==> forall j :: from <= j < k.value ==> !Completes(b, ScanOrder[j])
    ensures k.None? ==> forall j :: from <= j < |ScanOrder| ==> !Completes(b, ScanOrder[j])
    decreases |ScanOrder| - from
  {
    if from == |ScanOrder| then None
    else if Completes(b, ScanOrder[from]) then Some(from)
    else FirstCompleteFrom(b, from + 1)
  }

  /** The scan finds a line exactly when there is one, and the line it finds
      is the first one. */
  lemma FirstCompleteFound(b: Grid)
    ensures FirstCompleteFrom(b, 0).Some? <==> HasCompleteLine(b)
    ensures FirstCompleteFrom(b, 0).Some? ==> FirstComplete(b, FirstCompleteFrom(b, 0).value)
  {
  }

  /** The symbol of a complete line. */
  function LineSymbol(b: Grid, l: Line): Symbol
    requires Completes(b, l)
  {
    At(b, l.a).sym
  }

  // ---- counting marks ----

  function CountRow(r: seq<Cell>, s: Symbol): nat
    requires |r| == 3
  {
    (if r[0] == Mark(s) then 1 else 0) + (if r[1] == Mark(s) then 1 else 0) + (if r[2] == Mark(s) then 1 else 0)
  }

  /** How many cells hold symbol `s`. */
  function Count(b: Grid, s: Symbol): nat {
    CountRow(b[0], s) + CountRow(b[1], s) + CountRow(b[2], s)
  }

  /** Marking an empty cell with `s` adds one to `s`'s count and leaves the
      other symbol's count alone. */
  lemma PlaceCount(b: Grid, row: Coord, col: Coord, s: Symbol, t: Symbol)
    requires b[row][col] == Empty
    ensures Count(Place(b, row, col, Mark(s)), t) == Count(b, t) + (if s == t then 1 else 0)
  {
    var r := Place(b, row, col, Mark(s));
    assert CountRow(r[row], t) == CountRow(b[row], t) + (if s == t then 1 else 0);
  }

  // ---- text layout ----

  /** The one-character text of a cell. */
  function CellChar(c: Cell): char {
    match c
    case Empty => ' '
    case Mark(X) => 'X'
    case Mark(O) => 'O'
  }

  const Separator: string := "-----------\n"

  /** A row line without its line break: " a | b | c ". */
  function RowBody(r: seq<Cell>): string
    requires |r| == 3
  {
    " " + [CellChar(r[0])] + " | " + [CellChar(r[1])] + " | " + [CellChar(r[2])] + " "
  }

  /** One board row: its body closed by a line break. */
  function RowText(r: seq<Cell>): string
    requires |r| == 3
  {
    RowBody(r) + "\n"
  }

  /** The board as text: three rows with a separator line between them. */
  function Render(b: Grid): string {
    RowText(b[0]) + Separator + RowText(b[1]) + Separator + RowText(b[2])
  }

  /** The fixed characters of a row line starting at `off`: the padding
      spaces, the two bars and the closing line break, " a | b | c \n". */
  predicate RowFrame(t: string, off: nat)
    requires off + 12 <= |t|
  {
    && t[off] == ' ' && t[off + 2] == ' ' && t[off + 3] == '|' && t[off + 4] == ' '
    && t[off + 6] == ' ' && t[off + 7] == '|' && t[off + 8] == ' ' && t[off + 10] == ' '
    && t[off + 11] == '\n'
  }

  lemma RowLayout(r: seq<Cell>)
    requires |r| == 3
    ensures |RowText(r)| == 12
    ensures RowText(r)[1] == CellChar(r[0]) && RowText(r)[5] == CellChar(r[1]) && RowText(r)[9] == CellChar(r[2])
    ensures RowFrame(RowText(r), 0)
  {
  }

  /** The layout is fixed character by character: 60 characters, cell (i, j)
      at 24 * i + 4 * j + 1, row lines at 0, 24 and 48 framed by spaces, bars
      and a line break, separator lines at 12 and 36. */
  lemma RenderLayout(b: Grid)
    ensures |Render(b)| == 60
    ensures forall i, j :: 0 <= i < 3 && 0 <= j < 3 ==> Render(b)[24 * i + 4 * j + 1] == CellChar(b[i][j])
    ensures RowFrame(Render(b), 0) && RowFrame(Render(b), 24) && RowFrame(Render(b), 48)
    ensures Render(b)[12..24] == Separator && Render(b)[36..48] == Separator
  {
    RenderRows(b);
    PlacedRows(Render(b), b);
  }

  /** Any 60-character text holding the three row lines at 0, 24 and 48
      has the cells and frames of the board text there. */
  lemma PlacedRows(s: string, b: Grid)
    requires |s| == 60
    requires s[0..12] == RowText(b[0]) && s[24..36] == RowText(b[1]) && s[48..60] == RowText(b[2])
    ensures forall i, j :: 0 <= i < 3 && 0 <= j < 3 ==> s[24 * i + 4 * j + 1] == CellChar(b[i][j])
    ensures RowFrame(s, 0) && RowFrame(s, 24) && RowFrame(s, 48)
  {
    RowPlaced(s, b[0], 0);
    RowPlaced(s, b[1], 24);
    RowPlaced(s, b[2], 48);
  }

  /** The board text cut into its five lines. */
  lemma RenderRows(b: Grid)
    ensures |Render(b)| == 60
    ensures Render(b)[0..12] == RowText(b[0]) && Render(b)[24..36] == RowText(b[1]) && Render(b)[48..60] == RowText(b[2])
    ensures Render(b)[12..24] == Separator && Render(b)[36..48] == Separator
  {
    var s := Render(b);
    var r0, r1, r2 := RowText(b[0]), RowText(b[1]), RowText(b[2]);
    RowLayout(b[0]);
    RowLayout(b[1]);
    RowLayout(b[2]);
    assert s == r0 + Separator + r1 + Separator + r2;
  }

  /** A row line copied into a longer text at `off` keeps its frame and its
      cells there. */
  lemma RowPlaced(s: string, r: seq<Cell>, off: nat)
    requires |r| == 3 && off + 12 <= |s| && s[off..off + 12] == RowText(r)
    ensures RowFrame(s, off)
    ensures s[off + 1] == CellChar(r[0]) && s[off + 5] == CellChar(r[1]) && s[off + 9] == CellChar(r[2])
  {
    var t := RowText(r);
    RowLayout(r);
    assert forall k :: 0 <= k < 12 ==> s[off + k] == t[k] by {
      forall k | 0 <= k < 12 ensures s[off + k] == t[k] {
        assert s[off..off + 12][k] == t[k];
      }
    }
  }
}

=== FILE: board_parser.dfy ===
/** The client's getBoardMatrix (client/MorpionClientGUI.java): it splits the
    server's board text into lines, reads lines 0, 2 and 4, splits each on
    '|' and trims every piece. Java's String.split and String.trim are
    modelled exactly for single-character separators. */
module BoardParser {
  import opened Common
  import opened Board

  // ---- String.split on one character ----

  /** Every piece between occurrences of `sep`, empty ones included. */
  function Pieces(s: string, sep: char): (parts: seq<string>)
    ensures |parts| >= 1
    ensures forall i :: 0 <= i < |parts| ==> sep !in parts[i]
    decreases |s|
  {
    if s == [] then [[]]
    else
      var rest := Pieces(s[1..], sep);
      if s[0] == sep then [[]] + rest
      else [[s[0]] + rest[0]] + rest[1..]
  }

  /** Glues pieces back together with `sep` between them. */
  function Join(parts: seq<string>, sep: char): string
    requires |parts| >= 1
  {
    if |parts| == 1 then parts[0] else parts[0] + [sep] + Join(parts[1..], sep)
  }

  /** Splitting loses nothing: joining the pieces gives back the text. */
  lemma {:induction false} JoinPieces(s: string, sep: char)
    ensures Join(Pieces(s, sep), sep) == s
    decreases |s|
  {
    if s != [] {
      JoinPieces(s[1..], sep);
      var rest := Pieces(s[1..], sep);
      if s[0] != sep {
        if |rest| == 1 {
          assert Join(Pieces(s, sep), sep) == [s[0]] + rest[0];
        } else {
          assert rest == [rest[0]] + rest[1..];
          assert Join(rest, sep) == rest[0] + [sep] + Join(rest[1..], sep);
          assert Join(Pieces(s, sep), sep) == [s[0]] + rest[0] + [sep] + Join(rest[1..], sep);
        }
      }
      assert s == [s[0]] + s[1..];
    }
  }

  lemma {:induction false} PiecesWithoutSep(a: string, sep: char)
    requires sep !in a
    ensures Pieces(a, sep) == [a]
    decreases |a|
  {
    if a != [] {
      PiecesWithoutSep(a[1..], sep);
      assert [a[0]] + a[1..] == a;
    }
  }

  /** The first piece ends at the first separator. */
  lemma {:induction false} PiecesAfterFirst(a: string, sep: char, b: string)
    requires sep !in a
    ensures Pieces(a + [sep] + b, sep) == [a] + Pieces(b, sep)
    decreases |a|
  {
    var s := a + [sep] + b;
    if a == [] {
      assert s[1..] == b;
    } else {
      assert s[1..] == a[1..] + [sep] + b;
      PiecesAfterFirst(a[1..], sep, b);
      assert [a[0]] + a[1..] == a;
    }
  }

  /** Drops empty pieces from the end (String.split with limit 0). */
  function DropTrailingEmpty(parts: seq<string>): (r: seq<string>)
    ensures |r| <= |parts| && r == parts[..|r|]
    ensures |r| > 0 ==> r[|r| - 1] != []
    ensures forall i :: |r| <= i < |parts| ==> parts[i] == []
  {
    if parts == [] then []
    else if parts[|parts| - 1] == [] then DropTrailingEmpty(parts[..|parts| - 1])
    else parts
  }

  /** Java's `s.split(sep)`: the whole text when `sep` does not occur,
      otherwise the pieces without the trailing empty ones. */
  function JavaSplit(s: string, sep: char): (parts: seq<string>)
    ensures forall i :: 0 <= i < |parts| ==> sep !in parts[i]
    ensures sep !in s ==> parts == [s]
    ensures sep in s ==>
      && |parts| <= |Pieces(s, sep)| && parts == Pieces(s, sep)[..|parts|]
      && (|parts| > 0 ==> parts[|parts| - 1] != [])
      && forall i :: |parts| <= i < |Pieces(s, sep)| ==> Pieces(s, sep)[i] == []
  {
    if sep !in s then [s] else DropTrailingEmpty(Pieces(s, sep))
  }

  // ---- String.trim ----

  /** How many characters up to ' ' open the text. */
  function LeadingBlanks(s: string): (n: nat)
    ensures n <= |s|
    ensures forall k :: 0 <= k < n ==> s[k] <= ' '
    ensures n < |s| ==> s[n] > ' '
  {
    if |s| > 0 && s[0] <= ' ' then 1 + LeadingBlanks(s[1..]) else 0
  }

  /** How many characters up to ' ' close the text. */
  function TrailingBlanks(s: string): (n: nat)
    ensures n <= |s|
    ensures forall k :: |s| - n <= k < |s| ==> s[k] <= ' '
    ensures n < |s| ==> s[|s| - n - 1] > ' '
  {
    if |s| > 0 && s[|s| - 1] <= ' ' then 1 + TrailingBlanks(s[..|s| - 1]) else 0
  }

  /** Java's `s.trim()`: strips characters up to ' ' from both ends. */
  function Trim(s: string): (t: string)
    ensures t == [] || (t[0] > ' ' && t[|t| - 1] > ' ')
    ensures forall k :: 0 <= k < LeadingBlanks(s) ==> s[k] <= ' '
    ensures LeadingBlanks(s) + |t| <= |s| && t == s[LeadingBlanks(s)..LeadingBlanks(s) + |t|]
    ensures forall k :: LeadingBlanks(s) + |t| <= k < |s| ==> s[k] <= ' '
  {
    var t := s[LeadingBlanks(s)..];
    t[..|t| - TrailingBlanks(t)]
  }

  // ---- the parser ----

  /** The three trimmed cells of one split row. */
  function TrimRow(cells: seq<string>): (r: seq<string>)
    requires |cells| >= 3
    ensures |r| == 3 && forall j :: 0 <= j < 3 ==> r[j] == Trim(cells[j])
  {
    [Trim(cells[0]), Trim(cells[1]), Trim(cells[2])]
  }

  /** getBoardMatrix: None stands for the ArrayIndexOutOfBoundsException the
      source throws on text with fewer than five lines or a row with fewer
      than three '|'-separated pieces. */
  function GetBoardMatrix(text: string): (m: Option<seq<seq<string>>>)
    ensures var lines := JavaSplit(text, '\n');
      m.Some? <==>
        && |lines| >= 5
        && |JavaSplit(lines[0], '|')| >= 3
        && |JavaSplit(lines[2], '|')| >= 3
        && |JavaSplit(lines[4], '|')| >= 3
    ensures m.Some? ==> |m.value| == 3 && |m.value[0]| == 3 && |m.value[1]| == 3 && |m.value[2]| == 3
    ensures m.Some? ==> var lines := JavaSplit(text, '\n');
      forall j :: 0 <= j < 3 ==>
        && m.value[0][j] == Trim(JavaSplit(lines[0], '|')[j])
        && m.value[1][j] == Trim(JavaSplit(lines[2], '|')[j])
        && m.value[2][j] == Trim(JavaSplit(lines[4], '|')[j])
  {
    var lines := JavaSplit(text, '\n');
    if |lines| < 5 then None
    else
      var top, middle, bottom := JavaSplit(lines[0], '|'), JavaSplit(lines[2], '|'), JavaSplit(lines[4], '|');
      if |top| < 3 || |middle| < 3 || |bottom| < 3 then None
      else Some([TrimRow(top), TrimRow(middle), TrimRow(bottom)])
  }

  /** Only lines 0, 2 and 4 matter: texts that agree on them parse alike,
      whatever their separator lines hold. */
  lemma SeparatorLinesIgnored(t1: string, t2: string)
    requires |JavaSplit(t1, '\n')| >= 5 && |JavaSplit(t2, '\n')| >= 5
    requires forall i :: 0 <= i < 3 ==> JavaSplit(t1, '\n')[2 * i] == JavaSplit(t2, '\n')[2 * i]
    ensures GetBoardMatrix(t1) == GetBoardMatrix(t2)
  {
    var l1, l2 := JavaSplit(t1, '\n'), JavaSplit(t2, '\n');
    assert l1[0] == l2[0] && l1[2] == l2[2] && l1[4] == l2[4] by {
      assert l1[2 * 0] == l2[2 * 0];
      assert l1[2 * 1] == l2[2 * 1];
      assert l1[2 * 2] == l2[2 * 2];
    }
  }

  // ---- round trip with the server's layout ----

  /** What the client reads back for a cell: "" for an empty one. */
  function CellName(c: Cell): string {
    match c
    case Empty => ""
    case Mark(X) => "X"
    case Mark(O) => "O"
  }

  function Padded(c: Cell): string {
    [' ', CellChar(c), ' ']
  }

  lemma TrimPadded(c: Cell)
    ensures Trim(Padded(c)) == CellName(c)
  {
    match c
    case Empty =>
      assert LeadingBlanks(Padded(c)) == 3;
    case Mark(s) =>
      assert LeadingBlanks(Padded(c)) == 1;
      assert TrailingBlanks([CellChar(c), ' ']) == 1;
  }

  /** A row line splits on '|' into the three padded cells. */
  lemma SplitRow(r: seq<Cell>)
    requires |r| == 3
    ensures JavaSplit(RowBody(r), '|') == [Padded(r[0]), Padded(r[1]), Padded(r[2])]
  {
    var p0, p1, p2 := Padded(r[0]), Padded(r[1]), Padded(r[2]);
    assert RowBody(r) == p0 + ['|'] + (p1 + ['|'] + p2);
    assert '|' !in p0 && '|' !in p1 && '|' !in p2;
    PiecesAfterFirst(p0, '|', p1 + ['|'] + p2);
    PiecesAfterFirst(p1, '|', p2);
    PiecesWithoutSep(p2, '|');
    assert RowBody(r)[3] == '|';
    assert Pieces(RowBody(r), '|') == [p0, p1, p2];
    assert p2 != [];
  }

  /** Five lines, each closed by a line break, split back into those lines. */
  lemma SplitFiveLines(l0: string, l1: string, l2: string, l3: string, l4: string)
    requires '\n' !in l0 && '\n' !in l1 && '\n' !in l2 && '\n' !in l3 && '\n' !in l4
    requires l4 != []
    ensures JavaSplit((l0 + "\n") + (l1 + "\n") + (l2 + "\n") + (l3 + "\n") + (l4 + "\n"), '\n') == [l0, l1, l2, l3, l4]
  {
    var t4 := l4 + ['\n'] + [];
    var t3 := l3 + ['\n'] + t4;
    var t2 := l2 + ['\n'] + t3;
    var t1 := l1 + ['\n'] + t2;
    var s := l0 + ['\n'] + t1;
    assert (l0 + "\n") + (l1 + "\n") + (l2 + "\n") + (l3 + "\n") + (l4 + "\n") == s;
    PiecesAfterFirst(l4, '\n', []);
    PiecesAfterFirst(l3, '\n', t4);
    PiecesAfterFirst(l2, '\n', t3);
    PiecesAfterFirst(l1, '\n', t2);
    PiecesAfterFirst(l0, '\n', t1);
    var p := [l0, l1, l2, l3, l4, []];
    assert Pieces(s, '\n') == p;
    assert s[|l0|] == '\n';
    assert '\n' in s;
    assert p[..5] == [l0, l1, l2, l3, l4];
    assert DropTrailingEmpty(p) == DropTrailingEmpty(p[..5]);
  }

  /** The board text splits into five lines: rows and separators alternating. */
  lemma SplitLines(b: Grid)
    ensures JavaSplit(Render(b), '\n') == [RowBody(b[0]), "-----------", RowBody(b[1]), "-----------", RowBody(b[2])]
  {
    var r0, r1, r2, d := RowBody(b[0]), RowBody(b[1]), RowBody(b[2]), "-----------";
    assert Separator == d + "\n";
    assert Render(b) == (r0 + "\n") + (d + "\n") + (r1 + "\n") + (d + "\n") + (r2 + "\n");
    SplitFiveLines(r0, d, r1, d, r2);
  }

  /** The names the client should read back for one row. */
  function RowNames(r: seq<Cell>): seq<string>
    requires |r| == 3
  {
    [CellName(r[0]), CellName(r[1]), CellName(r[2])]
  }

  lemma RowRoundTrip(r: seq<Cell>)
    requires |r| == 3
    ensures |JavaSplit(RowBody(r), '|')| == 3
    ensures TrimRow(JavaSplit(RowBody(r), '|')) == RowNames(r)
  {
    SplitRow(r);
    TrimPadded(r[0]);
    TrimPadded(r[1]);
    TrimPadded(r[2]);
  }

  /** Round trip: parsing the server's board text gives every cell's symbol
      back, with an empty cell read as "". */
  lemma ParseRendered(b: Grid)
    ensures GetBoardMatrix(Render(b)) == Some([RowNames(b[0]), RowNames(b[1]), RowNames(b[2])])
  {
    var lines := JavaSplit(Render(b), '\n');
    SplitLines(b);
    assert lines[0] == RowBody(b[0]) && lines[2] == RowBody(b[1]) && lines[4] == RowBody(b[2]);
    RowRoundTrip(b[0]);
    RowRoundTrip(b[1]);
    RowRoundTrip(b[2]);
    assert GetBoardMatrix(Render(b)) ==
      Some([TrimRow(JavaSplit(lines[0], '|')), TrimRow(JavaSplit(lines[2], '|')), TrimRow(JavaSplit(lines[4], '|'))]);
  }
}

=== FILE: common.dfy ===
/** Shared vocabulary of the tic-tac-toe model: optional values (Java's
    nullable references) and the two player symbols. */
module Common {

  /** A nullable reference: `None` stands for Java's `null`. */
  datatype Option<+T> = None | Some(value: T)

  /** The two marks a player can own; the engine spells them "X" and "O". */
  datatype Symbol = X | O {

    /** The opponent's symbol, used when the turn passes. */
    function Other(): (s: Symbol)
      ensures s != this
    {
      if this == X then O else X
    }
  }
}

=== FILE: game_room.dfy ===
/** The room of server/GameRoom.java: one engine, a fixed host, an optional
    guest and a lifecycle status, with every request mapped to a typed
    result. The room registers only its host with the engine; the guest is
    recorded in the room alone, so the engine never sees two players. */
module GameRoom {
  import opened Common
  import opened Board
  import GameState

  datatype RoomStatus = Waiting | InProgress | Completed | Error

  datatype RegistrationStatus = PlayerO | GameFull | Error

  datatype MoveStatus = Valid | Invalid | NotYourTurn | GameOver | GameNotReady

  datatype Room = Room(
    game: GameState.Game,
    roomId: string,
    status: RoomStatus,
    host: string,
    guest: Option<string>)

  /** A new room waits for a guest; the host holds the engine's X slot. */
  function NewRoom(roomId: string, host: string, start: Symbol): (r: Room)
    ensures r.roomId == roomId && r.host == host && r.guest.None?
    ensures r.status == Waiting
    ensures r.game.playerX == Some(host) && r.game.playerO.None?
    ensures GameState.IsFreshBoard(r.game, start)
  {
    var game := GameState.RegisterPlayer(GameState.NewGame(start), host).0;
    Room(game, roomId, Waiting, host, None)
  }

  /** Refuses an empty name or the host's name, then a second guest;
      otherwise records the guest and starts the game. */
  function RegisterPlayer(r: Room, name: string): (res: (Room, RegistrationStatus))
    ensures res.1 == RegistrationStatus.Error <==> name == "" || name == r.host
    ensures res.1 == RegistrationStatus.GameFull <==> name != "" && name != r.host && r.guest.Some?
    ensures res.1 == PlayerO ==> res.0 == r.(guest := Some(name), status := InProgress)
    ensures res.1 != PlayerO ==> res.0 == r
  {
    if name == "" then (r, RegistrationStatus.Error)
    else if name == r.host then (r, RegistrationStatus.Error)
    else if r.guest.Some? then (r, RegistrationStatus.GameFull)
    else (r.(guest := Some(name), status := InProgress), PlayerO)
  }

  /** joinRoom ignores the room id it is given. */
  function JoinRoom(r: Room, roomId: string, name: string): (res: (Room, RegistrationStatus))
    ensures res == RegisterPlayer(r, name)
  {
    RegisterPlayer(r, name)
  }

  predicate IsFull(r: Room) {
    r.guest.Some?
  }

  /** isEmpty is the negation of isFull: both look only at the guest. */
  function IsEmpty(r: Room): (e: bool)
    ensures e == !IsFull(r)
  {
    r.guest.None?
  }

  /** Checks room id and status, engine result, turn, then the engine's
      own validation, returning the first that fails. */
  function MakeMove(r: Room, roomId: string, row: int, col: int, name: string): (res: (Room, MoveStatus))
    ensures roomId != r.roomId || r.status != InProgress ==> res == (r, GameNotReady)
    ensures roomId == r.roomId && r.status == InProgress && r.game.over ==> res == (r, GameOver)
    ensures roomId == r.roomId && r.status == InProgress && !r.game.over && !GameState.IsPlayerTurn(r.game, name)
      ==> res == (r, NotYourTurn)
    ensures (&& roomId == r.roomId && r.status == InProgress && !r.game.over
             && GameState.IsPlayerTurn(r.game, name) && !GameState.MakeMove(r.game, row, col, name).1)
      ==> res == (r, Invalid)
    ensures res.1 == Invalid ==> res.0 == r && !GameState.MakeMove(r.game, row, col, name).1
    ensures res.1 == Valid <==>
      && roomId == r.roomId && r.status == InProgress
      && GameState.MakeMove(r.game, row, col, name).1
    ensures res.1 == Valid ==>
      && res.0.game == GameState.MakeMove(r.game, row, col, name).0
      && res.0.status == (if res.0.game.over then Completed else InProgress)
      && res.0 == r.(game := res.0.game, status := res.0.status)
  {
    if roomId != r.roomId then (r, GameNotReady)
    else if r.status != InProgress then (r, GameNotReady)
    else if r.game.over then (r, GameOver)
    else if !GameState.IsPlayerTurn(r.game, name) then (r, NotYourTurn)
    else
      var (game', ok) := GameState.MakeMove(r.game, row, col, name);
      if ok then
        (r.(game := game', status := if game'.over then Completed else r.status), Valid)
      else (r, Invalid)
  }

  // ---- room-id-guarded queries: a foreign id gets a neutral answer ----

  function GetCurrentBoard(r: Room, roomId: string): (s: string)
    ensures roomId != r.roomId ==> s == ""
    ensures roomId == r.roomId ==> s == GameState.GetCurrentBoard(r.game)
  {
    if roomId != r.roomId then "" else GameState.GetCurrentBoard(r.game)
  }

  function IsGameOver(r: Room, roomId: string): (b: bool)
    ensures b <==> roomId == r.roomId && r.game.over
  {
    if roomId != r.roomId then false else r.game.over
  }

  function GetWinner(r: Room, roomId: string): (w: Option<string>)
    ensures roomId != r.roomId ==> w.None?
    ensures roomId == r.roomId ==> w == r.game.winner
  {
    if roomId != r.roomId then None else r.game.winner
  }

  function IsPlayerTurn(r: Room, roomId: string, name: string): (b: bool)
    ensures b <==> roomId == r.roomId && GameState.IsPlayerTurn(r.game, name)
  {
    if roomId != r.roomId then false else GameState.IsPlayerTurn(r.game, name)
  }

  /** The room's own readiness: a guest is present (the engine is not asked). */
  function IsGameReady(r: Room, roomId: string): (b: bool)
    ensures b <==> roomId == r.roomId && r.guest.Some?
  {
    if roomId != r.roomId then false else r.guest.Some?
  }

  function GetRoomStatus(r: Room, roomId: string): (s: RoomStatus)
    ensures roomId != r.roomId ==> s == RoomStatus.Error
    ensures roomId == r.roomId ==> s == r.status
  {
    if roomId == r.roomId then r.status else RoomStatus.Error
  }

  /** "X" for the host, "O" for the guest, null otherwise or for a foreign id. */
  function GetPlayerSymbol(r: Room, roomId: string, name: string): (s: Option<Symbol>)
    ensures s == Some(X) <==> roomId == r.roomId && name == r.host
    ensures s == Some(O) <==> roomId == r.roomId && name != r.host && r.guest == Some(name)
  {
    if roomId != r.roomId then None
    else if name == r.host then Some(X)
    else if r.guest == Some(name) then Some(O)
    else None
  }

  // ---- commands ----

  /** A fresh board and status IN_PROGRESS, with or without a guest. */
  function ResetGame(r: Room, roomId: string, start: Symbol): (r': Room)
    ensures roomId != r.roomId ==> r' == r
    ensures roomId == r.roomId ==>
      && GameState.IsFreshBoard(r'.game, start)
      && GameState.SameSession(r.game, r'.game)
      && r'.status == InProgress
      && r' == r.(game := r'.game, status := r'.status)
  {
    if roomId == r.roomId then r.(game := GameState.ResetGame(r.game, start), status := InProgress)
    else r
  }

  /** The guest leaving clears the guest; the host leaving frees both engine
      slots but the room keeps its host. Any name, known or not, puts the
      room back to WAITING. */
  function DisconnectPlayer(r: Room, roomId: string, name: string, start: Symbol): (r': Room)
    ensures roomId != r.roomId ==> r' == r
    ensures roomId == r.roomId ==> r'.status == Waiting && r'.host == r.host && r'.roomId == r.roomId
    ensures roomId == r.roomId && name == r.host ==>
      && r'.guest == r.guest
      && r'.game.playerX != Some(r.host)
      && r'.game == (var g1 := GameState.DisconnectPlayer(r.game, r.host, start);
                     if r.guest.Some? then GameState.DisconnectPlayer(g1, r.guest.value, start) else g1)
    ensures roomId == r.roomId && name != r.host && r.guest == Some(name) ==>
      && r'.guest.None?
      && r'.game == GameState.DisconnectPlayer(r.game, name, start)
    ensures roomId == r.roomId && name != r.host && r.guest != Some(name) ==> r'.guest == r.guest && r'.game == r.game
  {
    if roomId != r.roomId then r
    else
      var game' :=
        if name == r.host then
          var g1 := GameState.DisconnectPlayer(r.game, r.host, start);
          if r.guest.Some? then GameState.DisconnectPlayer(g1, r.guest.value, start) else g1
        else if r.guest == Some(name) then GameState.DisconnectPlayer(r.game, name, start)
        else r.game;
      var guest' := if name != r.host && r.guest == Some(name) then None else r.guest;
      r.(game := game', guest := guest', status := Waiting)
  }

  // ---- the room invariant and its consequence ----

  /** What every room reachable through this API satisfies: the engine's O
      slot is never filled (the guest is not registered with it), the X slot
      holds the host or nobody, the guest is not the host, and the engine's
      board stays empty with no result. */
  ghost predicate RoomInv(r: Room) {
    && (r.status == Waiting || r.status == InProgress)
    && r.game.playerO.None?
    && (r.game.playerX.None? || r.game.playerX == Some(r.host))
    && r.guest != Some(r.host)
    && r.game.board == EmptyGrid
    && !r.game.over && r.game.winner.None?
  }

  lemma NewRoomInv(roomId: string, host: string, start: Symbol)
    ensures RoomInv(NewRoom(roomId, host, start))
  {
    assert NewRoom(roomId, host, start).game.board == EmptyGrid;
  }

  /** Every command keeps the room invariant. */
  lemma CommandsKeepInv(r: Room, roomId: string, name: string, row: int, col: int, start: Symbol)
    requires RoomInv(r)
    ensures RoomInv(RegisterPlayer(r, name).0)
    ensures RoomInv(MakeMove(r, roomId, row, col, name).0)
    ensures RoomInv(ResetGame(r, roomId, start))
    ensures RoomInv(DisconnectPlayer(r, roomId, name, start))
  {
    MoveKeepsRoom(r, roomId, row, col, name);
    ResetKeepsInv(r, roomId, start);
    DisconnectKeepsInv(r, roomId, name, start);
  }

  /** The engine refuses every move on a board without an O player, so the
      room comes back unchanged. */
  lemma MoveKeepsRoom(r: Room, roomId: string, row: int, col: int, name: string)
    requires RoomInv(r)
    ensures MakeMove(r, roomId, row, col, name).0 == r
  {
    assert !GameState.MakeMove(r.game, row, col, name).1;
  }

  lemma ResetKeepsInv(r: Room, roomId: string, start: Symbol)
    requires RoomInv(r)
    ensures RoomInv(ResetGame(r, roomId, start))
  {
    var r' := ResetGame(r, roomId, start);
    assert r'.game.board == EmptyGrid;
  }

  lemma DisconnectKeepsInv(r: Room, roomId: string, name: string, start: Symbol)
    requires RoomInv(r)
    ensures RoomInv(DisconnectPlayer(r, roomId, name, start))
  {
    var d := DisconnectPlayer(r, roomId, name, start);
    if roomId == r.roomId && (name == r.host || r.guest == Some(name)) {
      assert d.game.board == EmptyGrid;
    }
  }

  /** The consequence of never registering the guest with the engine: no move
      is ever VALID, a room never reaches COMPLETED, and a move that gets past
      the room's turn check always comes back INVALID. */
  lemma NoMoveIsEverValid(r: Room, roomId: string, row: int, col: int, name: string)
    requires RoomInv(r)
    ensures MakeMove(r, roomId, row, col, name).1 != Valid
    ensures MakeMove(r, roomId, row, col, name).0 == r
    ensures roomId == r.roomId && r.status == InProgress && GameState.IsPlayerTurn(r.game, name)
      ==> MakeMove(r, roomId, row, col, name).1 == Invalid
    ensures r.status != Completed
  {
  }

  /** What the queries show in a reachable room: the game is never over and
      has no winner, the board is empty, the guest never has the turn, and
      while the host holds the engine's X slot the room and the engine agree
      on the host's symbol. */
  lemma QueriesInReachableRoom(r: Room)
    requires RoomInv(r)
    ensures !IsGameOver(r, r.roomId) && GetWinner(r, r.roomId).None?
    ensures GetRoomStatus(r, r.roomId) != Completed
    ensures GetCurrentBoard(r, r.roomId) == Render(EmptyGrid)
    ensures r.guest.Some? ==> !IsPlayerTurn(r, r.roomId, r.guest.value)
    ensures r.game.playerX == Some(r.host) ==>
      GetPlayerSymbol(r, r.roomId, r.host) == GameState.GetPlayerSymbol(r.game, r.host)
  {
    assert GameState.GetCurrentBoard(r.game) == Render(r.game.board);
  }

  /** In a reachable room the host leaving empties the engine and gives it a
      fresh board, while the room keeps its host and guest. */
  lemma HostLeavingEmptiesEngine(r: Room, start: Symbol)
    requires RoomInv(r)
    ensures var r' := DisconnectPlayer(r, r.roomId, r.host, start);
      && r'.game.playerX.None? && r'.game.playerO.None?
      && GameState.IsFreshBoard(r'.game, start)
      && r'.host == r.host && r'.guest == r.guest && r'.status == Waiting
  {
  }

  /** In a reachable room the guest leaving still reaches the engine, which
      has no O player and so resets the board; the host keeps the X slot and
      the room forgets the guest. */
  lemma GuestLeavingResetsEngine(r: Room, start: Symbol)
    requires RoomInv(r) && r.guest.Some?
    ensures var r' := DisconnectPlayer(r, r.roomId, r.guest.value, start);
      && r'.game.playerX == r.game.playerX && r'.game.playerO.None?
      && GameState.IsFreshBoard(r'.game, start)
      && r'.host == r.host && r'.guest.None? && r'.status == Waiting
  {
  }
}

=== FILE: game_state.dfy ===
/** The tic-tac-toe engine of model/GameState.java: a board, the symbol to
    move, a game-over flag, a winner (a player name, "DRAW", or null), two
    player slots, per-player counters and the match history. Every operation
    is a pure function returning the new state; the random choice of the
    starting symbol is the `start` parameter. */
module GameState {
  import opened Common
  import opened Board

  /** The winner value the engine stores for a full board with no line. */
  const DrawMarker: string := "DRAW"

  datatype Game = Game(
    board: Grid,
    current: Symbol,
    over: bool,
    winner: Option<string>,
    playerX: Option<string>,
    playerO: Option<string>,
    wins: map<string, nat>,
    losses: map<string, nat>,
    draws: map<string, nat>,
    history: seq<string>)

  /** Nine empty cells, `start` to move, no result. */
  predicate IsFreshBoard(g: Game, start: Symbol) {
    && (forall i, j :: 0 <= i < 3 && 0 <= j < 3 ==> g.board[i][j] == Empty)
    && g.current == start
    && !g.over
    && g.winner == None
  }

  /** `r` differs from `g` at most in the board, turn, flag and winner. */
  predicate SameSession(g: Game, r: Game) {
    && r.playerX == g.playerX && r.playerO == g.playerO
    && r.wins == g.wins && r.losses == g.losses && r.draws == g.draws
    && r.history == g.history
  }

  /** Clears the board and picks the starting symbol; players, counters and
      history survive. */
  function ResetGame(g: Game, start: Symbol): (r: Game)
    ensures IsFreshBoard(r, start)
    ensures SameSession(g, r)
  {
    g.(board := EmptyGrid, current := start, over := false, winner := None)
  }

  /** A new engine: no players, no counters, no history, a fresh board. */
  function NewGame(start: Symbol): (g: Game)
    ensures IsFreshBoard(g, start)
    ensures g.playerX.None? && g.playerO.None?
    ensures g.wins == map[] && g.losses == map[] && g.draws == map[] && g.history == []
  {
    ResetGame(Game(EmptyGrid, X, false, None, None, None, map[], map[], map[], []), start)
  }

  // ---- registration and disconnection ----

  /** registerPlayer's reply: "WAIT", the symbol to move, or "GAME_FULL". */
  datatype Registration = Wait | Turn(sym: Symbol) | GameFull

  /** `m'` is `m` with every name of `names` added at 0 unless already there
      (Java's putIfAbsent). */
  predicate Seeded(m: map<string, nat>, m': map<string, nat>, names: set<string>) {
    && m'.Keys == m.Keys + names
    && forall n :: n in m' ==> m'[n] == (if n in m then m[n] else 0)
  }

  function PutIfAbsent(m: map<string, nat>, k: string): (r: map<string, nat>)
    ensures Seeded(m, r, {k})
  {
    if k in m then m else m[k := 0]
  }

  /** The first caller takes the X slot, the second the O slot (and both
      get counters), any later caller is turned away. */
  function RegisterPlayer(g: Game, name: string): (res: (Game, Registration))
    ensures res.1 == Wait <==> g.playerX.None?
    ensures res.1 == GameFull <==> g.playerX.Some? && g.playerO.Some?
    ensures res.1 == Wait ==> res.0 == g.(playerX := Some(name))
    ensures res.1.Turn? ==>
      && res.1.sym == g.current
      && res.0.playerX == g.playerX && res.0.playerO == Some(name)
      && Seeded(g.wins, res.0.wins, {g.playerX.value, name})
      && Seeded(g.losses, res.0.losses, {g.playerX.value, name})
      && Seeded(g.draws, res.0.draws, {g.playerX.value, name})
      && res.0 == g.(playerO := res.0.playerO, wins := res.0.wins, losses := res.0.losses, draws := res.0.draws)
    ensures res.1 == GameFull ==> res.0 == g
  {
    if g.playerX.None? then
      (g.(playerX := Some(name)), Wait)
    else if g.playerO.None? then
      var x := g.playerX.value;
      var g' := g.(playerO := Some(name),
                   wins := PutIfAbsent(PutIfAbsent(g.wins, x), name),
                   losses := PutIfAbsent(PutIfAbsent(g.losses, x), name),
                   draws := PutIfAbsent(PutIfAbsent(g.draws, x), name));
      (g', Turn(g.current))
    else
      (g, GameFull)
  }

  /** Three registrations on a new engine: the first waits, the second is
      told who moves first, the third finds the game full. */
  lemma RegistrationSequence(start: Symbol, a: string, b: string, c: string)
    ensures var (g1, r1) := RegisterPlayer(NewGame(start), a);
            var (g2, r2) := RegisterPlayer(g1, b);
            var (g3, r3) := RegisterPlayer(g2, c);
            && r1 == Wait && r2 == Turn(start) && r3 == GameFull
            && g3.playerX == Some(a) && g3.playerO == Some(b)
  {
  }

  /** Frees the caller's slot (X checked first); whenever a slot is empty
      afterwards the board is reset. */
  function DisconnectPlayer(g: Game, name: string, start: Symbol): (r: Game)
    ensures g.playerX == Some(name) ==> r.playerX.None? && r.playerO == g.playerO
    ensures g.playerX != Some(name) && g.playerO == Some(name) ==> r.playerX == g.playerX && r.playerO.None?
    ensures g.playerX != Some(name) && g.playerO != Some(name) ==> r.playerX == g.playerX && r.playerO == g.playerO
    ensures r.playerX.None? || r.playerO.None? ==> IsFreshBoard(r, start)
    ensures r.playerX.Some? && r.playerO.Some? ==> r == g
    ensures r.wins == g.wins && r.losses == g.losses && r.draws == g.draws && r.history == g.history
  {
    var g' :=
      if g.playerX == Some(name) then g.(playerX := None)
      else if g.playerO == Some(name) then g.(playerO := None)
      else g;
    if g'.playerX.None? || g'.playerO.None? then ResetGame(g', start) else g'
  }

  // ---- queries ----

  predicate IsGameReady(g: Game) {
    g.playerX.Some? && g.playerO.Some?
  }

  /** The caller owns the slot of the symbol to move. */
  predicate IsPlayerTurn(g: Game, name: string) {
    || (g.current == X && g.playerX == Some(name))
    || (g.current == O && g.playerO == Some(name))
  }

  predicate IsValidPlayer(g: Game, name: string) {
    g.playerX == Some(name) || g.playerO == Some(name)
  }

  /** "X" for the X slot's owner, else "O" for the O slot's owner, else null. */
  function GetPlayerSymbol(g: Game, name: string): (r: Option<Symbol>)
    ensures r == Some(X) <==> g.playerX == Some(name)
    ensures r == Some(O) <==> g.playerX != Some(name) && g.playerO == Some(name)
    ensures r.None? <==> !IsValidPlayer(g, name)
  {
    if g.playerX == Some(name) then Some(X)
    else if g.playerO == Some(name) then Some(O)
    else None
  }

  /** With two distinct players, it is a player's turn exactly when the
      symbol to move is theirs. */
  lemma TurnMatchesSymbol(g: Game, name: string)
    requires g.playerX != g.playerO
    ensures IsPlayerTurn(g, name) <==> GetPlayerSymbol(g, name) == Some(g.current)
  {
  }

  /** The other slot's owner for a participant, null otherwise. */
  function GetOpponentName(g: Game, name: string): (r: Option<string>)
    ensures g.playerX == Some(name) ==> r == g.playerO
    ensures g.playerX != Some(name) && g.playerO == Some(name) ==> r == g.playerX
    ensures !IsValidPlayer(g, name) ==> r.None?
  {
    if g.playerX == Some(name) then g.playerO
    else if g.playerO == Some(name) then g.playerX
    else None
  }

  /** With two distinct players the opponent relation is an involution on
      the participants: the opponent is the other participant, and the
      opponent's opponent is the caller. */
  lemma OpponentOfOpponent(g: Game, name: string)
    requires IsGameReady(g) && g.playerX != g.playerO
    requires IsValidPlayer(g, name)
    ensures GetOpponentName(g, name).Some?
    ensures IsValidPlayer(g, GetOpponentName(g, name).value) && GetOpponentName(g, name).value != name
    ensures GetOpponentName(g, GetOpponentName(g, name).value) == Some(name)
  {
  }

  /** The board text of getCurrentBoard. */
  function GetCurrentBoard(g: Game): (s: string)
    ensures |s| == 60
    ensures forall i, j :: 0 <= i < 3 && 0 <= j < 3 ==> s[24 * i + 4 * j + 1] == CellChar(g.board[i][j])
    ensures RowFrame(s, 0) && RowFrame(s, 24) && RowFrame(s, 48)
    ensures s[12..24] == "-----------\n" && s[36..48] == "-----------\n"
  {
    RenderLayout(g.board);
    Render(g.board)
  }

  // ---- counters ----

  /** Java's getOrDefault(name, 0). */
  function Get(m: map<string, nat>, n: string): nat {
    if n in m then m[n] else 0
  }

  /** 1 when `n` is `who`: the contribution of one increment of `who`'s counter. */
  function Hit(n: string, who: string): nat {
    if n == who then 1 else 0
  }

  datatype PlayerStats = PlayerStats(wins: nat, losses: nat, draws: nat)

  /** A player's three counters; a player never seen reads as 0, 0, 0. */
  function GetPlayerStats(g: Game, name: string): (s: PlayerStats)
    ensures name !in g.wins ==> s.wins == 0
    ensures name !in g.losses ==> s.losses == 0
    ensures name !in g.draws ==> s.draws == 0
    ensures name in g.wins ==> s.wins == g.wins[name]
    ensures name in g.losses ==> s.losses == g.losses[name]
    ensures name in g.draws ==> s.draws == g.draws[name]
  {
    PlayerStats(Get(g.wins, name), Get(g.losses, name), Get(g.draws, name))
  }

  /** Counters outlive sessions: registering (whose putIfAbsent seeds only
      zeros), disconnecting and resetting leave every player's reported
      statistics unchanged. */
  lemma StatsSurviveSessions(g: Game, name: string, start: Symbol, who: string)
    ensures GetPlayerStats(RegisterPlayer(g, name).0, who) == GetPlayerStats(g, who)
    ensures GetPlayerStats(DisconnectPlayer(g, name, start), who) == GetPlayerStats(g, who)
    ensures GetPlayerStats(ResetGame(g, start), who) == GetPlayerStats(g, who)
  {
  }

  function Bump(m: map<string, nat>, k: string): (r: map<string, nat>)
    ensures r.Keys == m.Keys + {k}
    ensures forall n :: Get(r, n) == Get(m, n) + Hit(n, k)
  {
    m[k := Get(m, k) + 1]
  }

  /** The game ended in a draw (the winner field holds "DRAW"). */
  predicate IsDraw(g: Game) {
    g.winner == Some(DrawMarker)
  }

  /** The engine's winner is the X player (and it is not a draw). */
  predicate XWon(g: Game)
    requires g.playerX.Some?
  {
    !IsDraw(g) && g.winner == g.playerX
  }

  /** Counter update at the end of a game, with absent counters read as 0:
      a draw adds one draw to each player, otherwise the winner gains a win
      and the other player a loss. */
  function UpdatePlayerStats(g: Game): (r: Game)
    requires IsGameReady(g)
    ensures r == g.(wins := r.wins, losses := r.losses, draws := r.draws)
    ensures var x, o := g.playerX.value, g.playerO.value;
      forall n ::
        && Get(r.draws, n) == Get(g.draws, n) + (if IsDraw(g) then Hit(n, x) + Hit(n, o) else 0)
        && Get(r.wins, n) == Get(g.wins, n) + (if IsDraw(g) then 0 else if XWon(g) then Hit(n, x) else Hit(n, o))
        && Get(r.losses, n) == Get(g.losses, n) + (if IsDraw(g) then 0 else if XWon(g) then Hit(n, o) else Hit(n, x))
  {
    var x, o := g.playerX.value, g.playerO.value;
    if IsDraw(g) then
      g.(draws := Bump(Bump(g.draws, x), o))
    else if XWon(g) then
      g.(wins := Bump(g.wins, x), losses := Bump(g.losses, o))
    else
      g.(wins := Bump(g.wins, o), losses := Bump(g.losses, x))
  }

  /** How an operation as written ends: it returns normally, or it throws a
      NullPointerException and leaves the engine in state `left` (the engine
      object outlives the exception with every write made before it). */
  datatype Run<T> = Returned(value: T) | Threw(left: Game)

  /** A counter the end-of-game update increments is absent: a draw counter
      of either player on a draw, otherwise the winner's win counter or the
      other player's loss counter. */
  predicate MissingCounter(g: Game)
    requires IsGameReady(g)
  {
    var x, o := g.playerX.value, g.playerO.value;
    if IsDraw(g) then x !in g.draws || o !in g.draws
    else if XWon(g) then x !in g.wins || o !in g.losses
    else o !in g.wins || x !in g.losses
  }

  /** The counter update exactly as the source writes it: each increment is
      `get(name) + 1`, which throws on a name without a counter; an increment
      made before the throw stays. */
  function UpdatePlayerStatsAsWritten(g: Game): (r: Run<Game>)
    requires IsGameReady(g)
    ensures r.Threw? <==> MissingCounter(g)
    ensures r.Returned? ==> r.value == UpdatePlayerStats(g)
    ensures r.Threw? ==> var x, o := g.playerX.value, g.playerO.value;
      if IsDraw(g) then r.left == (if x in g.draws then g.(draws := Bump(g.draws, x)) else g)
      else if XWon(g) then r.left == (if x in g.wins then g.(wins := Bump(g.wins, x)) else g)
      else r.left == (if o in g.wins then g.(wins := Bump(g.wins, o)) else g)
  {
    var x, o := g.playerX.value, g.playerO.value;
    if IsDraw(g) then
      if x !in g.draws then Threw(g)
      else
        var d := g.draws[x := g.draws[x] + 1];
        if o !in d then Threw(g.(draws := d)) else Returned(g.(draws := d[o := d[o] + 1]))
    else if XWon(g) then
      if x !in g.wins then Threw(g)
      else
        var w := g.wins[x := g.wins[x] + 1];
        if o !in g.losses then Threw(g.(wins := w))
        else Returned(g.(wins := w, losses := g.losses[o := g.losses[o] + 1]))
    else
      if o !in g.wins then Threw(g)
      else
        var w := g.wins[o := g.wins[o] + 1];
        if x !in g.losses then Threw(g.(wins := w))
        else Returned(g.(wins := w, losses := g.losses[x := g.losses[x] + 1]))
  }

  // ---- match history ----

  predicate OccursAt(s: string, t: string, i: nat) {
    i + |t| <= |s| && s[i..i + |t|] == t
  }

  /** Java's String.contains. */
  predicate Contains(s: string, t: string) {
    exists i: nat :: i <= |s| && OccursAt(s, t, i)
  }

  lemma ContainsMiddle(a: string, t: string, b: string)
    ensures Contains(a + t + b, t)
  {
    assert OccursAt(a + t + b, t, |a|) by {
      assert (a + t + b)[|a|..|a| + |t|] == t;
    }
  }

  /** The one-line summary of a finished game. */
  function MatchLine(g: Game): string
    requires IsGameReady(g) && g.winner.Some?
  {
    var x, o := g.playerX.value, g.playerO.value;
    if IsDraw(g) then "Draw between " + x + " and " + o
    else g.winner.value + " won against " + (if g.winner == g.playerX then o else x)
  }

  /** The summary line names both players when the winner is one of them
      or the draw marker. */
  lemma MatchLineNamesBoth(g: Game)
    requires IsGameReady(g)
    ensures g.winner == Some(DrawMarker) || g.winner == g.playerX || g.winner == g.playerO ==>
      Contains(MatchLine(g), g.playerX.value) && Contains(MatchLine(g), g.playerO.value)
  {
    if g.winner == Some(DrawMarker) || g.winner == g.playerX || g.winner == g.playerO {
      var x, o := g.playerX.value, g.playerO.value;
      if IsDraw(g) {
        assert MatchLine(g) == "Draw between " + x + " and " + o;
        assert "Draw between " + x + " and " + o == "Draw between " + x + (" and " + o);
        ContainsMiddle("Draw between ", x, " and " + o);
        assert "Draw between " + x + " and " + o == ("Draw between " + x + " and ") + o + "";
        ContainsMiddle("Draw between " + x + " and ", o, "");
      } else {
        var w := g.winner.value;
        var l := if g.winner == g.playerX then o else x;
        assert MatchLine(g) == w + " won against " + l;
        assert w + " won against " + l == "" + w + (" won against " + l);
        ContainsMiddle("", w, " won against " + l);
        assert w + " won against " + l == (w + " won against ") + l + "";
        ContainsMiddle(w + " won against ", l, "");
      }
    }
  }

  function AddToMatchHistory(g: Game): (r: Game)
    requires IsGameReady(g) && g.winner.Some?
    ensures r == g.(history := r.history)
    ensures |r.history| == |g.history| + 1 && r.history[..|g.history|] == g.history
    ensures g.winner == Some(DrawMarker) || g.winner == g.playerX || g.winner == g.playerO ==>
      Contains(r.history[|g.history|], g.playerX.value) && Contains(r.history[|g.history|], g.playerO.value)
  {
    MatchLineNamesBoth(g);
    g.(history := g.history + [MatchLine(g)])
  }

  /** The history lines containing a name, in order (getMatchHistory). */
  function FilterContaining(h: seq<string>, name: string): (r: seq<string>)
    ensures |r| <= |h|
    ensures forall l :: l in r <==> l in h && Contains(l, name)
    ensures forall l :: multiset(r)[l] == if Contains(l, name) then multiset(h)[l] else 0
  {
    if h == [] then []
    else
      assert h == h[..|h| - 1] + [h[|h| - 1]];
      FilterContaining(h[..|h| - 1], name) + (if Contains(h[|h| - 1], name) then [h[|h| - 1]] else [])
  }

  function GetMatchHistory(g: Game, name: string): (r: seq<string>)
    ensures forall l :: l in r <==> l in g.history && Contains(l, name)
    ensures forall l :: multiset(r)[l] == if Contains(l, name) then multiset(g.history)[l] else 0
  {
    FilterContaining(g.history, name)
  }

  // ---- moves ----

  /** The player registered for a symbol (getPlayerNameBySymbol). */
  function NameBySymbol(g: Game, s: Symbol): Option<string> {
    if s == X then g.playerX else g.playerO
  }

  /** Scans rows, columns, then diagonals; the first complete line ends
      the game with its owner as winner, otherwise a full board is a draw. */
  function CheckGameOver(g: Game): (r: Game)
    ensures r == g.(over := r.over, winner := r.winner)
    ensures r.over <==> g.over || HasCompleteLine(g.board) || Full(g.board)
    ensures forall k :: FirstComplete(g.board, k) ==> r.winner == NameBySymbol(g, LineSymbol(g.board, ScanOrder[k]))
    ensures !HasCompleteLine(g.board) && Full(g.board) ==> r.winner == Some(DrawMarker)
    ensures !HasCompleteLine(g.board) && !Full(g.board) ==> r == g
  {
    FirstCompleteFound(g.board);
    match FirstCompleteFrom(g.board, 0)
    case Some(k) => g.(over := true, winner := NameBySymbol(g, LineSymbol(g.board, ScanOrder[k])))
    case None => if Full(g.board) then g.(over := true, winner := Some(DrawMarker)) else g
  }

  /** Every check makeMove performs before it writes. */
  predicate MoveAccepted(g: Game, row: int, col: int, name: string) {
    && !g.over
    && IsGameReady(g)
    && IsValidPlayer(g, name)
    && IsPlayerTurn(g, name)
    && 0 <= row <= 2 && 0 <= col <= 2
    && g.board[row][col] == Empty
  }

  /** The board after writing the mover's symbol and looking for a result. */
  function PlaceAndCheck(g: Game, row: Coord, col: Coord): Game {
    CheckGameOver(g.(board := Place(g.board, row, col, Mark(g.current))))
  }

  /** Validates, writes, checks for a result, then flips the turn or records
      the finished game. */
  function MakeMove(g: Game, row: int, col: int, name: string): (res: (Game, bool))
    ensures res.1 <==>
      && !g.over
      && g.playerX.Some? && g.playerO.Some?
      && IsPlayerTurn(g, name)
      && 0 <= row <= 2 && 0 <= col <= 2
      && g.board[row][col] == Empty
    ensures !res.1 ==> res.0 == g
    ensures res.1 ==> res.0.board[row][col] == Mark(g.current)
    ensures res.1 ==> forall i, j :: 0 <= i < 3 && 0 <= j < 3 && (i != row || j != col) ==> res.0.board[i][j] == g.board[i][j]
    ensures res.1 ==> res.0.current == (if res.0.over then g.current else g.current.Other())
    ensures res.1 ==> res.0.playerX == g.playerX && res.0.playerO == g.playerO
    ensures res.1 ==> (res.0.over <==> HasCompleteLine(res.0.board) || Full(res.0.board))
    ensures res.1 ==> forall k :: FirstComplete(res.0.board, k) ==>
      res.0.winner == NameBySymbol(g, LineSymbol(res.0.board, ScanOrder[k]))
    ensures res.1 && !HasCompleteLine(res.0.board) && Full(res.0.board) ==> res.0.winner == Some(DrawMarker)
    ensures res.1 && !res.0.over ==> res.0.winner == g.winner
    ensures res.1 && !res.0.over ==> SameSession(g, res.0)
    ensures res.1 && res.0.over ==> |res.0.history| == |g.history| + 1 && res.0.history[..|g.history|] == g.history
  {
    if g.over || !IsGameReady(g) then (g, false)
    else if !IsValidPlayer(g, name) || !IsPlayerTurn(g, name) then (g, false)
    else if row < 0 || row > 2 || col < 0 || col > 2 || g.board[row][col] != Empty then (g, false)
    else
      var c := PlaceAndCheck(g, row, col);
      if !c.over then (c.(current := c.current.Other()), true)
      else (AddToMatchHistory(UpdatePlayerStats(c)), true)
  }

  /** makeMove with the counter update as written. Apart from the exception
      it agrees with MakeMove; the exception comes only from an accepted move
      that ends the game, and it leaves that move on the board with the game
      over and its winner set, the turn not passed, no history line, and at
      most the counter increments MakeMove would make. */
  function MakeMoveAsWritten(g: Game, row: int, col: int, name: string): (r: Run<(Game, bool)>)
    ensures r.Threw? <==>
      && MoveAccepted(g, row, col, name)
      && PlaceAndCheck(g, row, col).over
      && MissingCounter(PlaceAndCheck(g, row, col))
    ensures r.Returned? ==> r.value == MakeMove(g, row, col, name)
    ensures r.Threw? ==> MakeMove(g, row, col, name).1 && MakeMove(g, row, col, name).0.over
    ensures r.Threw? ==> var m := MakeMove(g, row, col, name).0;
      && r.left.board == m.board && r.left.over && r.left.winner == m.winner
      && r.left.current == g.current && r.left.history == g.history
      && r.left.playerX == g.playerX && r.left.playerO == g.playerO
    ensures r.Threw? ==> var m := MakeMove(g, row, col, name).0;
      forall n ::
        && Get(g.wins, n) <= Get(r.left.wins, n) <= Get(m.wins, n)
        && Get(g.losses, n) <= Get(r.left.losses, n) <= Get(m.losses, n)
        && Get(g.draws, n) <= Get(r.left.draws, n) <= Get(m.draws, n)
  {
    if !MoveAccepted(g, row, col, name) then Returned((g, false))
    else
      var c := PlaceAndCheck(g, row, col);
      if !c.over then Returned((c.(current := c.current.Other()), true))
      else match UpdatePlayerStatsAsWritten(c)
        case Threw(left) => Threw(left)
        case Returned(s) => Returned((AddToMatchHistory(s), true))
  }

  // ---- invariants ----

  /** Strict alternation from `start`: the starting symbol has as many marks
      as the other or one more; while the game runs the symbol to move is the
      one behind, and after the last move it is the last mover's. */
  ghost predicate Balanced(g: Game, start: Symbol) {
    var d := Count(g.board, start) - Count(g.board, start.Other());
    && (d == 0 || d == 1)
    && if g.over then g.current == (if d == 1 then start else start.Other())
       else g.current == (if d == 0 then start else start.Other())
  }

  /** The game is over exactly when a winner (a name or "DRAW") is set. */
  predicate Decided(g: Game) {
    g.over <==> g.winner.Some?
  }

  ghost predicate Inv(g: Game, start: Symbol) {
    Balanced(g, start) && Decided(g)
  }

  lemma ResetEstablishesInv(g: Game, start: Symbol)
    ensures Inv(ResetGame(g, start), start)
  {
    var r := ResetGame(g, start);
    assert r.board == EmptyGrid;
  }

  lemma MakeMoveKeepsInv(g: Game, start: Symbol, row: int, col: int, name: string)
    requires Inv(g, start)
    ensures Inv(MakeMove(g, row, col, name).0, start)
  {
    var (r, ok) := MakeMove(g, row, col, name);
    if ok {
      var s := g.current;
      PlaceCount(g.board, row, col, s, start);
      PlaceCount(g.board, row, col, s, start.Other());
      assert r.board == Place(g.board, row, col, Mark(s));
      var c := PlaceAndCheck(g, row, col);
      assert c.over ==> c.winner.Some? by {
        FirstCompleteFound(c.board);
      }
    }
  }

  /** Registration and disconnection keep the invariant (a disconnection
      that resets the board starts a new alternation from its own symbol). */
  lemma RegisterKeepsInv(g: Game, start: Symbol, name: string)
    requires Inv(g, start)
    ensures Inv(RegisterPlayer(g, name).0, start)
  {
    var r := RegisterPlayer(g, name).0;
    assert r.board == g.board;
  }

  lemma DisconnectKeepsInv(g: Game, start: Symbol, name: string, next: Symbol)
    requires Inv(g, start)
    ensures var r := DisconnectPlayer(g, name, next);
      Inv(r, if IsGameReady(r) then start else next)
  {
    var r := DisconnectPlayer(g, name, next);
    if !IsGameReady(r) {
      assert r.board == EmptyGrid;
    }
  }

  /** A game-ending move adds exactly one line, and it shows up in both
      players' filtered histories. */
  lemma FinishedGameInBothHistories(g: Game, row: int, col: int, name: string)
    requires MakeMove(g, row, col, name).1 && MakeMove(g, row, col, name).0.over
    ensures var r := MakeMove(g, row, col, name).0;
      && |r.history| == |g.history| + 1
      && r.history[|g.history|] in GetMatchHistory(r, g.playerX.value)
      && r.history[|g.history|] in GetMatchHistory(r, g.playerO.value)
  {
    var c := PlaceAndCheck(g, row, col);
    FirstCompleteFound(c.board);
    var s := UpdatePlayerStats(c);
    MatchLineNamesBoth(s);
    var r := MakeMove(g, row, col, name).0;
    assert r == AddToMatchHistory(s);
    assert r.history[|g.history|] == MatchLine(s);
  }

  /** A game-ending move updates the counters once, for every name: a draw
      gives each player one draw, otherwise the winner gains one win and the
      other player one loss; no other counter moves. (With one name in both
      slots that name receives both increments, as in the source.) */
  lemma FinishedGameCountedOnce(g: Game, row: int, col: int, name: string)
    requires MakeMove(g, row, col, name).1 && MakeMove(g, row, col, name).0.over
    ensures var r := MakeMove(g, row, col, name).0;
      var x, o := g.playerX.value, g.playerO.value;
      var draw, xWon := r.winner == Some(DrawMarker), r.winner != Some(DrawMarker) && r.winner == g.playerX;
      forall n ::
        && Get(r.draws, n) == Get(g.draws, n) + (if draw then Hit(n, x) + Hit(n, o) else 0)
        && Get(r.wins, n) == Get(g.wins, n) + (if draw then 0 else if xWon then Hit(n, x) else Hit(n, o))
        && Get(r.losses, n) == Get(g.losses, n) + (if draw then 0 else if xWon then Hit(n, o) else Hit(n, x))
  {
    var c := PlaceAndCheck(g, row, col);
    var s := UpdatePlayerStats(c);
    var r := MakeMove(g, row, col, name).0;
    assert r == AddToMatchHistory(s);
  }

  /** An accepted move that completes no line and leaves an empty cell
      only writes the cell and passes the turn. */
  lemma QuietMove(g: Game, row: Coord, col: Coord, name: string, b: Grid)
    requires MoveAccepted(g, row, col, name)
    requires b == Place(g.board, row, col, Mark(g.current))
    requires FirstCompleteFrom(b, 0).None? && !Full(b)
    ensures MakeMove(g, row, col, name) == (g.(board := b, current := g.current.Other()), true)
  {
    FirstCompleteFound(b);
  }

  /** `a` and `b` register, `a` leaves, `c` takes the free X slot:
      registerPlayer gives counters only to the second registrant, so `c`
      has none. */
  function RejoinedSession(a: string, b: string, c: string): Game {
    var g1 := RegisterPlayer(NewGame(X), a).0;
    var g2 := RegisterPlayer(g1, b).0;
    var g3 := DisconnectPlayer(g2, a, X);
    RegisterPlayer(g3, c).0
  }

  /** Four quiet moves after the rejoin: X at (0,0), O at (1,0), X at (0,1),
      O at (1,1). */
  function RejoinedBeforeWin(a: string, b: string, c: string): Game {
    var g5 := MakeMove(RejoinedSession(a, b, c), 0, 0, c).0;
    var g6 := MakeMove(g5, 1, 0, b).0;
    var g7 := MakeMove(g6, 0, 1, c).0;
    MakeMove(g7, 1, 1, b).0
  }

  lemma RejoinedSessionFacts(a: string, b: string, c: string)
    requires a != b && b != c && a != c
    ensures var g := RejoinedSession(a, b, c);
      && g.playerX == Some(c) && g.playerO == Some(b) && c !in g.wins
      && g.board == EmptyGrid && g.current == X && !g.over
  {
  }

  /** X at (0,0), then O at (1,0), from an empty board with X to move. */
  lemma OpeningMoves(g: Game, b: string, c: string)
    requires g.playerX == Some(c) && g.playerO == Some(b) && b != c
    requires g.board == EmptyGrid && g.current == X && !g.over
    ensures MakeMove(MakeMove(g, 0, 0, c).0, 1, 0, b).0
      == g.(board := [[Mark(X), Empty, Empty], [Mark(O), Empty, Empty], [Empty, Empty, Empty]])
  {
    var b5: Grid := [[Mark(X), Empty, Empty], [Empty, Empty, Empty], [Empty, Empty, Empty]];
    var b6: Grid := [[Mark(X), Empty, Empty], [Mark(O), Empty, Empty], [Empty, Empty, Empty]];
    assert EmptyGrid[0][0 := Mark(X)] == b5[0];
    assert Place(g.board, 0, 0, Mark(X)) == b5;
    QuietMove(g, 0, 0, c, b5);
    var g5 := g.(board := b5, current := O);
    assert b5[1][0 := Mark(O)] == b6[1];
    QuietMove(g5, 1, 0, b, b6);
  }

  /** X at (0,1), then O at (1,1), after the opening moves. */
  lemma MiddleMoves(g: Game, b: string, c: string)
    requires g.playerX == Some(c) && g.playerO == Some(b) && b != c
    requires g.board == [[Mark(X), Empty, Empty], [Mark(O), Empty, Empty], [Empty, Empty, Empty]]
    requires g.current == X && !g.over
    ensures MakeMove(MakeMove(g, 0, 1, c).0, 1, 1, b).0
      == g.(board := [[Mark(X), Mark(X), Empty], [Mark(O), Mark(O), Empty], [Empty, Empty, Empty]])
  {
    XAtTopMiddle(g, c);
    OAtCentre(MakeMove(g, 0, 1, c).0, b);
  }

  lemma XAtTopMiddle(g: Game, c: string)
    requires g.playerX == Some(c) && g.playerO.Some? && g.playerO != g.playerX
    requires g.board == [[Mark(X), Empty, Empty], [Mark(O), Empty, Empty], [Empty, Empty, Empty]]
    requires g.current == X && !g.over
    ensures MakeMove(g, 0, 1, c)
      == (g.(board := [[Mark(X), Mark(X), Empty], [Mark(O), Empty, Empty], [Empty, Empty, Empty]], current := O), true)
  {
    var b7: Grid := [[Mark(X), Mark(X), Empty], [Mark(O), Empty, Empty], [Empty, Empty, Empty]];
    assert g.board[0][1 := Mark(X)] == b7[0];
    QuietMove(g, 0, 1, c, b7);
  }

  lemma OAtCentre(g: Game, b: string)
    requires g.playerO == Some(b) && g.playerX.Some? && g.playerO != g.playerX
    requires g.board == [[Mark(X), Mark(X), Empty], [Mark(O), Empty, Empty], [Empty, Empty, Empty]]
    requires g.current == O && !g.over
    ensures MakeMove(g, 1, 1, b)
      == (g.(board := [[Mark(X), Mark(X), Empty], [Mark(O), Mark(O), Empty], [Empty, Empty, Empty]], current := X), true)
  {
    var b8: Grid := [[Mark(X), Mark(X), Empty], [Mark(O), Mark(O), Empty], [Empty, Empty, Empty]];
    assert g.board[1][1 := Mark(O)] == b8[1];
    QuietMove(g, 1, 1, b, b8);
  }

  /** X completing the top row when X's owner has no counters: the engine
      as written throws, the corrected one records one win. */
  lemma TopRowWinWithoutCounters(g: Game, x: string)
    requires g.board == [[Mark(X), Mark(X), Empty], [Mark(O), Mark(O), Empty], [Empty, Empty, Empty]]
    requires g.current == X && !g.over && g.playerX == Some(x) && g.playerO.Some? && g.playerO != g.playerX
    requires x !in g.wins && x != DrawMarker
    ensures MakeMoveAsWritten(g, 0, 2, x).Threw?
    ensures var left := MakeMoveAsWritten(g, 0, 2, x).left;
      left.over && left.winner == Some(x) && left.history == g.history && left.wins == g.wins
    ensures MakeMove(g, 0, 2, x).1
    ensures GetPlayerStats(MakeMove(g, 0, 2, x).0, x).wins == 1
  {
    var b9: Grid := [[Mark(X), Mark(X), Mark(X)], [Mark(O), Mark(O), Empty], [Empty, Empty, Empty]];
    assert MoveAccepted(g, 0, 2, x);
    var k := PlaceAndCheck(g, 0, 2);
    assert g.board[0][2 := Mark(X)] == b9[0];
    assert k.board == b9;
    assert FirstComplete(b9, 0);
    assert k.winner == Some(x) && k.over;
    assert XWon(k);
  }

  /** Reachable counterexample for the counter update as written: after the
      rejoin, `c` completes the top row. */
  lemma RejoinedPlayerWinThrows(a: string, b: string, c: string)
    requires a != b && b != c && a != c && c != DrawMarker
    ensures MakeMoveAsWritten(RejoinedBeforeWin(a, b, c), 0, 2, c).Threw?
    ensures var left := MakeMoveAsWritten(RejoinedBeforeWin(a, b, c), 0, 2, c).left;
      left.over && left.winner == Some(c) && left.history == RejoinedBeforeWin(a, b, c).history
    ensures MakeMove(RejoinedBeforeWin(a, b, c), 0, 2, c).1
    ensures GetPlayerStats(MakeMove(RejoinedBeforeWin(a, b, c), 0, 2, c).0, c).wins == 1
  {
    RejoinedSessionFacts(a, b, c);
    var g4 := RejoinedSession(a, b, c);
    OpeningMoves(g4, b, c);
    var g6 := MakeMove(MakeMove(g4, 0, 0, c).0, 1, 0, b).0;
    MiddleMoves(g6, b, c);
    TopRowWinWithoutCounters(RejoinedBeforeWin(a, b, c), c);
  }
}

=== FILE: room_manager.dfy ===
/** The room registry of server/GameRoomManager.java: a map from room id to
    a small room record (the nested GameRoomManager.GameRoom, distinct from
    the server's GameRoom). Room ids, which the source draws from a random
    UUID, and the clock are parameters. */
module GameRoomManager {
  import opened Common

  // ---- Java long arithmetic ----

  const MinLong: int := -0x8000_0000_0000_0000
  const MaxLong: int := 0x7FFF_FFFF_FFFF_FFFF
  const LongModulus: int := 0x1_0000_0000_0000_0000

  /** A value of Java's 64-bit `long`. */
  type Long = x: int | MinLong <= x <= MaxLong

  /** Two's-complement wrap-around of a mathematical result into a `long`. */
  function Wrap(x: int): (r: Long)
    ensures (r - x) % LongModulus == 0
    ensures MinLong <= x <= MaxLong ==> r == x
  {
    (x - MinLong) % LongModulus + MinLong
  }

  // ---- the nested room record ----

  datatype ManagedRoom = ManagedRoom(
    playerX: string,
    playerO: Option<string>,
    active: bool,
    lastActivity: Long)

  /** A room created by `host` at time `now`: open, active, host as X. */
  function NewManagedRoom(host: string, now: Long): (r: ManagedRoom)
    ensures r.playerX == host && r.playerO.None? && r.active && r.lastActivity == now
  {
    ManagedRoom(host, None, true, now)
  }

  predicate IsFull(r: ManagedRoom) {
    r.playerO.Some?
  }

  predicate IsAvailable(r: ManagedRoom) {
    !IsFull(r) && r.active
  }

  /** Fills the O slot if it is free and touches the activity time. */
  function AddPlayer(r: ManagedRoom, name: string, now: Long): (res: (ManagedRoom, bool))
    ensures res.1 <==> !IsFull(r)
    ensures res.1 ==> res.0 == r.(playerO := Some(name), lastActivity := now)
    ensures !res.1 ==> res.0 == r
  {
    if r.playerO.None? then (r.(playerO := Some(name), lastActivity := now), true)
    else (r, false)
  }

  /** addPlayer succeeds at most once per room. */
  lemma AddPlayerAtMostOnce(r: ManagedRoom, a: string, b: string, t1: Long, t2: Long)
    requires AddPlayer(r, a, t1).1
    ensures IsFull(AddPlayer(r, a, t1).0)
    ensures AddPlayer(AddPlayer(r, a, t1).0, b, t2) == (AddPlayer(r, a, t1).0, false)
  {
  }

  function CloseRoom(r: ManagedRoom): (r': ManagedRoom)
    ensures !r'.active && !IsAvailable(r')
    ensures r' == r.(active := false)
  {
    r.(active := false)
  }

  /** More than `timeoutMillis` have passed since the last activity, with the
      subtraction done in `long` arithmetic. */
  predicate IsInactive(r: ManagedRoom, timeoutMillis: Long, now: Long) {
    Wrap(now - r.lastActivity) > timeoutMillis
  }

  // ---- the registry ----

  type Rooms = map<string, ManagedRoom>

  /** Stores a new room under `id` (the source's random id). A fresh id adds
      exactly that key; the source does not check, so a colliding id replaces
      the old room. */
  function CreateRoom(rooms: Rooms, host: string, id: string, now: Long): (res: (Rooms, string))
    ensures res.1 == id
    ensures res.0.Keys == rooms.Keys + {id}
    ensures res.0[id] == NewManagedRoom(host, now)
    ensures forall k :: k in rooms && k != id ==> res.0[k] == rooms[k]
    ensures id !in rooms ==> |res.0| == |rooms| + 1
  {
    (rooms[id := NewManagedRoom(host, now)], id)
  }

  /** Joins an existing, active, non-full room. */
  function JoinRoom(rooms: Rooms, id: string, name: string, now: Long): (res: (Rooms, bool))
    ensures res.1 <==> id in rooms && IsAvailable(rooms[id])
    ensures !res.1 ==> res.0 == rooms
    ensures res.1 ==> res.0 == rooms[id := rooms[id].(playerO := Some(name), lastActivity := now)]
  {
    if id in rooms && IsAvailable(rooms[id]) then
      var (room', ok) := AddPlayer(rooms[id], name, now);
      (rooms[id := room'], ok)
    else (rooms, false)
  }

  /** Ids of the rooms that are active and not full. */
  function GetAvailableRooms(rooms: Rooms): (ids: set<string>)
    ensures forall id :: id in ids <==> id in rooms && rooms[id].active && !IsFull(rooms[id])
  {
    set id | id in rooms && IsAvailable(rooms[id])
  }

  function GetAllRooms(rooms: Rooms): (ids: set<string>)
    ensures forall id :: id in ids <==> id in rooms
  {
    rooms.Keys
  }

  /** Closes the room and drops its key; also returns the closed room, as
      seen by anyone still holding it. An absent id changes nothing. */
  function RemoveRoom(rooms: Rooms, id: string): (res: (Rooms, Option<ManagedRoom>))
    ensures res.0.Keys == rooms.Keys - {id}
    ensures forall k :: k in res.0 ==> res.0[k] == rooms[k]
    ensures id in rooms ==> res.1 == Some(CloseRoom(rooms[id]))
    ensures id !in rooms ==> res == (rooms, None)
  {
    if id in rooms then (rooms - {id}, Some(CloseRoom(rooms[id])))
    else (rooms, None)
  }

  /** The timeout in milliseconds, `minutes * 60 * 1000` in `long` arithmetic. */
  function TimeoutMillis(minutes: Long): (t: Long)
    ensures (t - minutes * 60000) % LongModulus == 0
    ensures MinLong <= minutes * 60000 <= MaxLong ==> t == minutes * 60000
  {
    WrapThenScale(minutes * 60);
    var t := Wrap(Wrap(minutes * 60) * 1000);
    CongruentLongsEqual(t, minutes * 60000);
    t
  }

  /** Wrapping before a multiplication by 1000 does not change the wrapped
      product: both are congruent to `x * 1000`. */
  lemma WrapThenScale(x: int)
    ensures (Wrap(Wrap(x) * 1000) - x * 1000) % LongModulus == 0
  {
    var w := Wrap(x);
    var t := Wrap(w * 1000);
    var a := (w - x) / LongModulus;
    assert w - x == a * LongModulus;
    var b := (t - w * 1000) / LongModulus;
    assert t - w * 1000 == b * LongModulus;
    assert t - x * 1000 == (a * 1000 + b) * LongModulus;
    MultipleOfModulus(a * 1000 + b);
  }

  /** A proof step for `TimeoutMillis` (arithmetic only). */
  lemma MultipleOfModulus(k: int)
    ensures (k * LongModulus) % LongModulus == 0
  {
  }

  /** A proof step for `TimeoutMillis` (arithmetic only): a `long`
      congruent modulo 2^64 to a value in the `long` range is that value. */
  lemma CongruentLongsEqual(a: Long, b: int)
    ensures MinLong <= b <= MaxLong && (a - b) % LongModulus == 0 ==> a == b
  {
  }

  /** Drops every room that has been inactive longer than the timeout and
      keeps the others untouched. */
  function CleanupInactiveRooms(rooms: Rooms, minutes: Long, now: Long): (r: Rooms)
    ensures forall id :: id in r <==> id in rooms && !IsInactive(rooms[id], TimeoutMillis(minutes), now)
    ensures forall id :: id in r ==> r[id] == rooms[id]
  {
    map id | id in rooms && !IsInactive(rooms[id], TimeoutMillis(minutes), now) :: rooms[id]
  }

  /** "X" for the room's X player, "O" for its O player, null for an unknown
      room or a stranger. */
  function GetPlayerSymbol(rooms: Rooms, id: string, name: string): (s: Option<Symbol>)
    ensures s == Some(X) <==> id in rooms && rooms[id].playerX == name
    ensures s == Some(O) <==> id in rooms && rooms[id].playerX != name && rooms[id].playerO == Some(name)
  {
    if id !in rooms then None
    else if name == rooms[id].playerX then Some(X)
    else if rooms[id].playerO == Some(name) then Some(O)
    else None
  }

  // ---- properties across operations ----

  /** For timeouts and clocks in the ordinary range (no `long` overflow), a
      room is swept exactly when more than `minutes` minutes have passed. */
  lemma CleanupMatchesElapsedTime(rooms: Rooms, minutes: Long, now: Long, id: string)
    requires 0 <= minutes <= MaxLong / 60000
    requires id in rooms && 0 <= rooms[id].lastActivity <= now
    ensures id in CleanupInactiveRooms(rooms, minutes, now) <==> now - rooms[id].lastActivity <= minutes * 60000
  {
    assert Wrap(minutes * 60) == minutes * 60;
    assert Wrap(minutes * 60 * 1000) == minutes * 60 * 1000;
    assert TimeoutMillis(minutes) == minutes * 60000;
    assert Wrap(now - rooms[id].lastActivity) == now - rooms[id].lastActivity;
  }

  /** Every room in the registry is active: closeRoom is only reached through
      removeRoom, which drops the key. */
  ghost predicate AllActive(rooms: Rooms) {
    forall id :: id in rooms ==> rooms[id].active
  }

  lemma OperationsKeepAllActive(rooms: Rooms, id: string, name: string, now: Long, minutes: Long)
    requires AllActive(rooms)
    ensures AllActive(CreateRoom(rooms, name, id, now).0)
    ensures AllActive(JoinRoom(rooms, id, name, now).0)
    ensures AllActive(RemoveRoom(rooms, id).0)
    ensures AllActive(CleanupInactiveRooms(rooms, minutes, now))
  {
  }

  /** In a registry built by these operations, a room is listed as available
      exactly when its O slot is free, and joining a listed room succeeds. */
  lemma AvailableMeansJoinable(rooms: Rooms, id: string, name: string, now: Long)
    requires AllActive(rooms)
    ensures id in GetAvailableRooms(rooms) <==> id in rooms && rooms[id].playerO.None?
    ensures id in GetAvailableRooms(rooms) <==> JoinRoom(rooms, id, name, now).1
  {
  }

  /** The listings agree with each other and with the commands: every
      available room is listed among all rooms, creating adds exactly its id
      to the list and removing takes exactly its id out. */
  lemma RoomListings(rooms: Rooms, host: string, id: string, now: Long)
    ensures GetAvailableRooms(rooms) <= GetAllRooms(rooms)
    ensures GetAllRooms(CreateRoom(rooms, host, id, now).0) == GetAllRooms(rooms) + {id}
    ensures GetAllRooms(RemoveRoom(rooms, id).0) == GetAllRooms(rooms) - {id}
  {
  }

  /** A newly created room is listed as available until someone joins it;
      after one join it is no longer available and a second join fails. */
  lemma CreateThenJoin(rooms: Rooms, host: string, id: string, guest: string, other: string, t1: Long, t2: Long, t3: Long)
    ensures var r1 := CreateRoom(rooms, host, id, t1).0;
      && id in GetAvailableRooms(r1)
      && JoinRoom(r1, id, guest, t2).1
      && id !in GetAvailableRooms(JoinRoom(r1, id, guest, t2).0)
      && !JoinRoom(JoinRoom(r1, id, guest, t2).0, id, other, t3).1
      && GetPlayerSymbol(JoinRoom(r1, id, guest, t2).0, id, host) == Some(X)
  {
  }
}
